=== FILE: README.md ===
# Book service of the e-library backend, modelled in Dafny

This project models the book service of the e-library API (`elib`). It covers
the five book handlers (create, update, list, get one, delete), the
authentication middleware in front of them, and the global error handler behind
them. The service's collaborators become values:

- the document store is a map from book identifier to `Book`, plus the
  identifiers in creation order, newest first (`BookStore`);
- the media host is an oracle whose uploads return a URL or throw, and whose
  destroys succeed or throw (`Media.Host`);
- token verification is an oracle that returns the decoded claims or throws.

Each handler is a pure function. It takes the store, the caller identifier the
middleware attached, the request and the oracles. It returns a `Step`: the
outcome (a direct response or an error passed to `next`), the store afterwards,
and the media calls made, in order. That trace is what lets the contracts say
"no side effect happens before the 404/403 checks" and "the record goes only
after both destroys".

The JavaScript primitives the handlers rely on are modelled with their exact
behaviour (`JsStrings`):

- `split` on one character, which always returns at least one piece;
- `Array.prototype.at` with negative indices, which yields `undefined` when the
  index is out of range;
- `+` with `undefined`, which prints the text "undefined";
- `parseInt`: leading white space, a sign, a `0x` prefix, the longest digit run,
  and NaN when there is no digit.

Three behaviours of the code are proved as written:

- A cover whose file name has several dots keeps only the piece between the last
  two dots (`my.cover.jpg` → `folder/cover`).
- A cover whose name has no dot gets the identifier `folder/undefined`.
- The limit cap does not catch negative numbers: `limit=-500` is a limit of
  -500.

Files: `wrappers.dfy` (Option), `js_strings.dfy`, `public_id.dfy`,
`book_store.dfy`, `media.dfy`, `http.dfy`, `pagination.dfy`,
`book_controller.dfy`, `authenticate.dfy`, `error_handler.dfy`, `book_api.dfy`.

## Model

| member | source | states |
|---|---|---|
| JsStrings.Split | elib/src/book/bookController.ts:112 | `split` on a separator never yields an empty array |
| JsStrings.JoinSplit | elib/src/book/bookController.ts:112 | re-joining the pieces of `split` gives back the URL, and no piece contains the separator |
| JsStrings.SplitJoin | elib/src/book/bookController.ts:148 | splitting pieces joined by a separator they do not contain gives back the pieces |
| JsStrings.SplitAround | elib/src/book/bookController.ts:268 | splitting at one separator occurrence splits the two sides independently |
| JsStrings.SplitHead | elib/src/middlewares/authenticate.ts:19 | the first piece of `split` is the text before the first separator, or the whole text when there is none |
| JsStrings.SplitLast | elib/src/book/bookController.ts:122-124 | the last piece of `split` has no separator and is a tail of the text that is the whole text or follows a separator, so it is the text after the last separator |
| JsStrings.SplitLastTwo | elib/src/book/bookController.ts:148-150 | with a separator present there are at least two pieces; the last two hold no separator, and joined by one they form a tail of the text that follows a separator, so they are the text after the second-to-last separator |
| JsStrings.At | elib/src/book/bookController.ts:113-116 | `at(i)` is defined exactly for -length <= i < length, with negative indices counting from the end |
| JsStrings.ParseInt | elib/src/book/bookController.ts:206-207 | `parseInt` of blank text is NaN; text whose first non-blank character is not a digit or sign is NaN; a negative result needs a leading minus |
| JsStrings.ParseIntDecimal | elib/src/book/bookController.ts:206-207 | `parseInt` reads a decimal numeral back when what follows is not a digit, so "12x" gives 12; only "0" followed by x or X is excluded, since that starts a hexadecimal prefix |
| JsStrings.ParseIntNegative | elib/src/book/bookController.ts:206-207 | a leading minus sign yields the negated number |
| JsStrings.ParseIntSkipsSpace | elib/src/book/bookController.ts:206-207 | leading white space never changes the result of `parseInt` |
| JsStrings.ParseIntNaN | elib/src/book/bookController.ts:206-207 | text starting with something other than a digit, sign or white space is NaN |
| JsStrings.ParseIntUndefined | elib/src/book/bookController.ts:206-207 | an absent query parameter (the text "undefined") is NaN |
| PublicId.CoverPublicId | elib/src/book/bookController.ts:112-116 | for a URL with a slash, the cover identifier starts with the PDF-style folder and its slash, and the rest has no dot |
| PublicId.PdfPublicId | elib/src/book/bookController.ts:148-150 | the PDF identifier always holds a slash; for a URL with a slash it is the URL's tail after its second-to-last slash, with exactly one slash |
| PublicId.PdfPublicIdOfUrl | elib/src/book/bookController.ts:148-150 | the PDF identifier of `base/folder/name` is `folder/name`, extension kept |
| PublicId.CoverPublicIdOfUrl | elib/src/book/bookController.ts:112-116 | the cover identifier of `base/folder/stem.ext` is `folder/stem` |
| PublicId.CoverPublicIdKeepsOnlyLastStem | elib/src/book/bookController.ts:268-270 | with several dots only the piece immediately before the last dot survives |
| PublicId.CoverPublicIdWithoutDot | elib/src/book/bookController.ts:268-270 | a final piece without a dot gives the identifier `folder/undefined` |
| PublicId.PdfPublicIdWithoutSlash | elib/src/book/bookController.ts:272-274 | a URL without a slash gives `undefined/` followed by the URL |
| Pagination.PageOf | elib/src/book/bookController.ts:206 | a page that is missing, NaN or 0 becomes 1; any other parsed number is kept, so the page is never 0 |
| Pagination.LimitOf | elib/src/book/bookController.ts:207 | a limit that is missing, NaN or 0 becomes 10; 1..100 is kept; above 100 becomes 100; a negative number passes through |
| Pagination.PageOfNumeral | elib/src/book/bookController.ts:206 | a decimal page parameter n means page max(n, 1) |
| Pagination.LimitOfNumeral | elib/src/book/bookController.ts:207 | a decimal limit parameter n means 10 for 0 and min(n, 100) otherwise |
| Pagination.LimitOfNegative | elib/src/book/bookController.ts:207 | "-n" passes the cap as the limit -n |
| Pagination.TotalPages | elib/src/book/bookController.ts:222 | the page count is the least integer not below totalBooks / limit, for either sign of limit |
| Pagination.Window | elib/src/book/bookController.ts:216-217 | skip/limit returns the contiguous run starting at `skip`, of at most abs(limit) items; a negative skip is a store error |
| BookStore.Insert | elib/src/book/bookController.ts:66-73 | a created book is added under its new identifier at the front of the order (the newest), every other book is kept, and the store stays well-formed |
| BookStore.Replace | elib/src/book/bookController.ts:177-187 | an update rewrites one book, keeps the key set and the order, and the store stays well-formed |
| BookStore.RemoveId | elib/src/book/bookController.ts:293 | removing an identifier from the order keeps exactly the other identifiers, in their order, and no duplicates: an absent identifier changes nothing, and a present one (in a duplicate-free order) has exactly its position cut out |
| BookStore.Remove | elib/src/book/bookController.ts:293 | a deleted book's key is gone, every other book is untouched, the other identifiers keep their order, and the store stays well-formed |
| BookStore.Owned | elib/src/book/bookController.ts:213-214 | the author filter returns exactly the caller's books, and each is as stored |
| BookStore.OwnedOne | elib/src/book/bookController.ts:213-214 | filtering one identifier gives its entry when it is a stored book by the caller, and nothing otherwise |
| BookStore.OwnedAppend | elib/src/book/bookController.ts:213-218 | filtering a concatenation concatenates the filters, so the listed books keep the order of the identifiers: newest first, as the `createdAt` descending sort returns them |
| BookStore.OwnedCountAmong | elib/src/book/bookController.ts:210 | over distinct identifiers, the filter's length equals the number of matching books |
| BookStore.OwnedCount | elib/src/book/bookController.ts:210-214 | in a well-formed store, the listed books and the counted books are the same number |
| BookController.MimeToExtension | elib/src/book/bookController.ts:10-21 | jpeg→jpg, png→png, pdf→pdf, each in both directions; every other type maps to "" |
| BookController.NewCoverUpload | elib/src/book/bookController.ts:38-45 | a new cover goes to `book-covers`, and `format` is passed exactly when the MIME type has a known extension |
| BookController.ReplacementCoverUpload | elib/src/book/bookController.ts:121-134 | a replacement cover goes to `book-covers` as an image under its own file name, with a format always passed: the slash-free text after the MIME type's last "/" |
| BookController.PdfUpload | elib/src/book/bookController.ts:157-167 | a book file goes to `book-pdfs` as a raw resource under its own file name, with format "pdf" |
| BookController.CoverDestroy | elib/src/book/bookController.ts:112-118 | the stale cover is destroyed as an image under the identifier recovered from its URL |
| BookController.PdfDestroy | elib/src/book/bookController.ts:148-154 | the stale book file is destroyed as a raw resource under the identifier recovered from its URL |
| BookController.ReplacementCoverFormat | elib/src/book/bookController.ts:121-134 | a replacement cover's format is the MIME subtype after the last "/", so "image/jpeg" gives "jpeg" |
| BookController.CreateBook | elib/src/book/bookController.ts:24-87 | 201 exactly when both files are present, both uploads succeed, the book is persistable and the id is fresh. On 201: cover uploaded before PDF, author is the caller, URLs are the upload results, the book is newest. Otherwise: fixed 500 message, store unchanged. A failed cover upload makes no PDF upload; a missing PDF file means at most the cover upload |
| BookController.UpdateBook | elib/src/book/bookController.ts:89-193 | 404 exactly when absent, 403 exactly when not the author; both make no media call and leave the store unchanged. A body without multipart files gives 500 "Error updating book." with no media call. The cover-step 500 happens exactly when a new cover came and its destroy or upload failed; the file-step 500 exactly when the cover step did not fail and the file step did; 200 exactly when neither failed. No error writes the store |
| BookController.UpdateOwnBook | elib/src/book/bookController.ts:105-189 | a failed cover step makes no PDF call: the calls are the cover destroy, then the upload only if the destroy succeeded. A failed file step's calls are the full cover step, then the file destroy and, if it succeeded, the upload. On success: absent fields and files keep their values, each new file's old asset is destroyed before the upload, the author, keys and order are kept |
| BookController.Paginate | elib/src/book/bookController.ts:206-225 | the page body holds the owned books from `(page-1)*limit` onward, exactly min(abs(limit), what remains) of them (none past the end), with the count, the page-count ceiling and `currentPage`; the page fails exactly when the offset is negative |
| BookController.ListPage | elib/src/book/bookController.ts:208-227 | the store is untouched; 500 exactly when the offset is negative; otherwise 200 with the page of the caller's books, each as stored, taken from `Owned` over the store's newest-first order (whose order `BookStore.OwnedAppend` pins) |
| BookController.ListBooks | elib/src/book/bookController.ts:196-229 | 401 exactly when the caller id is missing or empty. Otherwise only the caller's books are counted and returned, from the offset of `Owned` over the store's newest-first order (see `BookStore.OwnedAppend`), exactly min(abs(limit), what remains) of them, with currentPage*limit >= their number when limit > 0. 500 exactly when the offset is negative. The store is never touched |
| BookController.GetOneBook | elib/src/book/bookController.ts:231-248 | no ownership check: the stored book or 404, store and media untouched |
| BookController.DeleteBook | elib/src/book/bookController.ts:250-303 | 404/403 checks come before any media call and leave the store unchanged. A cover-destroy failure, then a PDF-destroy failure, each give their own 500 and keep the record. 204 exactly when the store changed; then both destroys succeeded in that order, only that record is gone and the other identifiers keep their order. A failed cover destroy makes no PDF destroy: its calls are the cover destroy alone; a failed PDF destroy's calls are the cover destroy then the PDF destroy |
| AuthMiddleware.Authenticate | elib/src/middlewares/authenticate.ts:11-29 | a missing or empty header gives 401 "required"; a header with no second field, or an empty one, gives 401 "expired". The caller is authenticated exactly when the header's second space-separated field exists, is non-empty and verifies; the user id is then the token's `sub`. Every refusal is 401, and once a non-empty header is present every refusal, including a token that fails verification, carries "Token exprired." |
| AuthMiddleware.BearerToken | elib/src/middlewares/authenticate.ts:19 | a token exists exactly when the header has a space, and it is the text after the first space up to the next space or the end |
| AuthMiddleware.BearerTokenOf | elib/src/middlewares/authenticate.ts:19 | the token is the second space-separated field, whatever the scheme word and whatever follows |
| AuthMiddleware.NoSpaceRejected | elib/src/middlewares/authenticate.ts:19-26 | a header without a space yields no token and is refused with 401 |
| AuthMiddleware.EmptyBearerRejected | elib/src/middlewares/authenticate.ts:18-26 | "Bearer " with nothing after the space is refused with 401 whatever the verifier would say |
| AuthMiddleware.BearerAuthenticates | elib/src/middlewares/authenticate.ts:18-28 | `Bearer <token>` with a token that verifies authenticates as its subject |
| ErrorHandler.HandleError | elib/src/middlewares/globalErrorHandler.js:5-16 | status is `statusCode` when present and non-zero, else 500. `success` is false. The message is the error's when non-empty, else the default. `errorStack` is the stack in development and "" otherwise |
| ErrorHandler.HttpErrorRendered | elib/src/middlewares/globalErrorHandler.js:6-14 | an HTTP error with a status and a message reaches the client with both unchanged |
| BookApi.Serve | elib/src/book/bookRouter.ts:23-47 | every route but `GET /:bookId` refuses a missing header with 401 before touching anything. Reads never change the store. Well-formedness of the store is preserved. Rendered errors have `success` false |
| BookApi.CreateThenRead | elib/src/book/bookRouter.ts:23-45 | creating "Dune" then reading it by the returned id, without authentication, gives title "Dune" with the creator as author |
| BookApi.StrangerCannotDelete | elib/src/book/bookRouter.ts:45-47 | a delete by a non-author is 403, touches neither store nor media, and the book stays readable |
| BookApi.PaginationBoundary | elib/src/book/bookController.ts:206-207 | page "0" with limit "500" lists exactly what page "1" with limit "100" lists |

## Left out

- Temporary files: multer's disk storage and the `fs.promises.unlink` calls (bookController.ts:77-78, 137, 170) are file-system I/O. The model assumes the deletes succeed. In the source, a failing unlink gives 500 after the upload, and in createBook after the record is already written.
- Media host internals: Cloudinary itself is an oracle. An upload returns a URL or throws; a destroy succeeds or throws. Its answer to an unknown public id is whatever the oracle says.
- JWT verification: signature and expiry checks are the `verify` oracle. An absent token (no second header field) is refused without consulting it, as `jsonwebtoken` does.
- Store internals. Mongoose queries become map operations. Queries on ids that are not valid ObjectIds fail in Mongoose with a cast error (a 500); the model treats every string as a key.
- Other store failures: a failing lookup, count, find or delete (the 500 paths at bookController.ts:226-227, 245-246, 295-301) is not modelled. Two store errors are modelled: a duplicate generated id in createBook, and a negative `skip` in listBooks, which `BookController.ListPage` answers with the 500 of bookController.ts:226-227. In updateBook the outer `catch` (bookController.ts:190-191) is modelled for a body without multipart files only; a failing lookup or write is not modelled.
- Non-multipart create: a createBook body without multipart files is modelled as both files missing, which gives the same 500 the source gives when it reads `files.coverImage[0]`.
- `populate`: the author-name join on list and get one is not modelled. The author is returned as its identifier.
- The `createdAt` sort: the store keeps identifiers in creation order, newest first, and the listing reads that order. Ties between equal timestamps are not modelled.
- The book schema: `bookModel.ts` is not part of this model. `BookController.Persistable` assumes it requires non-empty `title`, `genre`, `description` and `author`.
- Update semantics: `findOneAndUpdate` is taken to drop fields that are `undefined`. An absent text field therefore keeps its old value.
- Store edge cases in paging: the store's reaction to a negative `skip` (an error) and to a negative `limit` (one batch of at most |limit| items) is an assumption about MongoDB and its driver, which are not part of this model.
- Number precision: `parseInt` results and page arithmetic are unbounded integers. JavaScript numbers lose precision above 2^53, and such inputs are not modelled.
- Query parameters: a parameter given several times (an array) is not modelled.
- Status codes: the error handler does not check that a status code is a valid HTTP code before Express uses it.
- Logging: `console.log`/`console.error` output, including the development-only stack log, is not modelled.
- The user routes, `app.ts` (CORS, JSON body parsing), `db.ts`, the process-manager configuration and the dashboard and reading front-ends are outside the book service.
- The compiled `.js` copies of the controller and router duplicate the `.ts` sources, which are the ones cited.

=== FILE: authenticate.dfy ===
/** The authentication middleware: read the `Authorization` header, take its
    second space-separated field as the token, verify it, and attach the token's
    subject as the caller identifier. Token verification (signature, expiry) is
    an oracle `verify` that yields the decoded claims or throws (`None`). */
module AuthMiddleware {
  import opened Wrappers
  import opened JsStrings
  import opened Http

  /** The decoded token payload; `sub` may be absent. */
  datatype Claims = Claims(sub: Option<string>)

  /** Either `next(createHttpError(401, ...))`, or `next()` with `userId` set to
      the subject (which is `undefined` when the token had none). */
  datatype AuthResult = Rejected(err: HttpError) | Authenticated(userId: Option<string>)

  const MissingToken := "Authorization token is required."
  const BadToken := "Token exprired."

  /** `header.split(" ")[1]`: present exactly when the header has a space, and
      then the text between its first space and the next one (or the end). */
  function BearerToken(header: string): (t: Option<string>)
    ensures t.Some? <==> ' ' in header
    ensures t.Some? ==> HeadBefore(t.value, header[FirstIndex(header, ' ') + 1..], ' ')
  {
    var parts := Split(header, ' ');
    if ' ' in header then
      SplitUnfold(header, ' ');
      SplitHead(header[FirstIndex(header, ' ') + 1..], ' ');
      At(parts, 1)
    else
      SplitSepFree(header, ' ');
      At(parts, 1)
  }

  /** A missing or empty header is refused before anything else; otherwise the
      second field must be a token that verifies. An empty token is refused by
      the verifier itself, like an absent one. */
  function Authenticate(header: Option<string>, verify: string -> Option<Claims>): (r: AuthResult)
    ensures r.Rejected? ==> r.err.status == 401
    ensures header.None? || header == Some("") <==> r == Rejected(HttpError(401, MissingToken))
    ensures header.Some? && header.value != "" && (BearerToken(header.value).None? || BearerToken(header.value) == Some(""))
      ==> r == Rejected(HttpError(401, BadToken))
    ensures header.Some? && header.value != "" && r.Rejected? ==> r.err == HttpError(401, BadToken)
    ensures r.Authenticated? <==>
      && header.Some? && header.value != ""
      && BearerToken(header.value).Some? && BearerToken(header.value).value != ""
      && verify(BearerToken(header.value).value).Some?
    ensures r.Authenticated? ==> r.userId == verify(BearerToken(header.value).value).value.sub
  {
    match header
    case None => Rejected(HttpError(401, MissingToken))
    case Some(h) =>
      if h == "" then Rejected(HttpError(401, MissingToken))
      else
        match BearerToken(h)
        case None => Rejected(HttpError(401, BadToken))
        case Some(token) =>
          if token == "" then Rejected(HttpError(401, BadToken))
          else match verify(token)
          case None => Rejected(HttpError(401, BadToken))
          case Some(claims) => Authenticated(claims.sub)
  }

  /** The token is the second field, whatever the first one says and whatever
      follows: "Bearer t" and "Basic t x" both give "t". */
  lemma BearerTokenOf(scheme: string, token: string, rest: string)
    requires ' ' !in scheme && ' ' !in token
    ensures BearerToken(scheme + " " + token) == Some(token)
    ensures BearerToken(scheme + " " + token + " " + rest) == Some(token)
  {
    assert scheme + " " + token == scheme + [' '] + token;
    SplitAround(scheme, ' ', token);
    SplitSepFree(scheme, ' ');
    SplitSepFree(token, ' ');
    assert scheme + " " + token + " " + rest == scheme + [' '] + (token + [' '] + rest);
    SplitAround(scheme, ' ', token + [' '] + rest);
    SplitAround(token, ' ', rest);
  }

  /** A header without a space carries no token, so it is refused whatever
      `verify` would have said. */
  lemma NoSpaceRejected(header: string, verify: string -> Option<Claims>)
    requires header != "" && ' ' !in header
    ensures Authenticate(Some(header), verify) == Rejected(HttpError(401, BadToken))
  {
    SplitSepFree(header, ' ');
  }

  /** A well-formed bearer header with a token that verifies authenticates as the
      token's subject. */
  lemma BearerAuthenticates(token: string, verify: string -> Option<Claims>, sub: string)
    requires token != "" && ' ' !in token && verify(token) == Some(Claims(Some(sub)))
    ensures Authenticate(Some("Bearer " + token), verify) == Authenticated(Some(sub))
  {
    BearerTokenOf("Bearer", token, "");
    assert "Bearer " + token == "Bearer" + " " + token;
  }

  /** "Bearer " with nothing after the space carries an empty token, which is
      refused whatever `verify` would say of it. */
  lemma EmptyBearerRejected(verify: string -> Option<Claims>)
    ensures Authenticate(Some("Bearer "), verify) == Rejected(HttpError(401, BadToken))
  {
    BearerTokenOf("Bearer", "", "");
    assert "Bearer" + " " + "" == "Bearer ";
  }
}

=== FILE: book_api.dfy ===
/** The book routes put together: every route except `GET /:bookId` runs the
    authentication middleware first, the handler then runs with the caller
    identifier it attached, and anything passed to `next(err)` is rendered by
    the global error handler. */
module BookApi {
  import opened Wrappers
  import opened JsStrings
  import opened BookStore
  import opened Media
  import opened Http
  import opened Pagination
  import opened AuthMiddleware
  import opened ErrorHandler
  import opened BookController

  datatype Request =
    | CreateRequest(authorization: Option<string>, fields: Fields, files: Files)
    | UpdateRequest(authorization: Option<string>, bookId: string, fields: Fields, multipart: Option<Files>)
    | ListRequest(authorization: Option<string>, page: Option<string>, limit: Option<string>)
    | GetRequest(bookId: string)
    | DeleteRequest(authorization: Option<string>, bookId: string)

  /** What the process supplies: token verification, the media host, the next
      identifier the store generates, the configured environment name and the
      stack trace an error carries. */
  datatype Env = Env(verify: string -> Option<Claims>, media: Host, newId: string, nodeEnv: string, stack: string)

  datatype Reply = Sent(status: int, body: Body) | Failed(error: ErrorReply)

  datatype Served = Served(reply: Reply, store: Store, calls: seq<Call>)

  function ReplyStatus(r: Reply): int {
    match r
    case Sent(s, _) => s
    case Failed(e) => e.status
  }

  function Render(o: Outcome, env: Env): Reply {
    match o
    case Respond(s, b) => Sent(s, b)
    case Forward(e) => Failed(HandleError(FromHttpError(e, env.stack), env.nodeEnv))
  }

  /** The handler a request reaches once it is past authentication. */
  function Dispatch(req: Request, st: Store, caller: Option<string>, env: Env): Step {
    match req
    case CreateRequest(_, fields, files) => CreateBook(st, caller, fields, files, env.media, env.newId)
    case UpdateRequest(_, id, fields, files) => UpdateBook(st, id, caller, fields, files, env.media)
    case ListRequest(_, page, limit) => ListBooks(st, caller, page, limit)
    case GetRequest(id) => GetOneBook(st, id)
    case DeleteRequest(_, id) => DeleteBook(st, id, caller, env.media)
  }

  function Serve(req: Request, st: Store, env: Env): (s: Served)
    ensures Valid(st) ==> Valid(s.store)
    ensures s.reply.Failed? ==> !s.reply.error.success && s.store == st
    ensures ReplyStatus(s.reply) in {200, 201, 204, 401, 403, 404, 500}
    ensures req.GetRequest? || req.ListRequest? ==> s.store == st && s.calls == []
    ensures !req.GetRequest? && (req.authorization.None? || req.authorization == Some("")) ==>
      && s.reply == Failed(HandleError(FromHttpError(HttpError(401, MissingToken), env.stack), env.nodeEnv))
      && ReplyStatus(s.reply) == 401
      && s.store == st && s.calls == []
  {
    if req.GetRequest? then
      var step := Dispatch(req, st, None, env);
      Served(Render(step.outcome, env), step.store, step.calls)
    else
      match Authenticate(req.authorization, env.verify)
      case Rejected(e) => Served(Render(Forward(e), env), st, [])
      case Authenticated(uid) =>
        var step := Dispatch(req, st, uid, env);
        Served(Render(step.outcome, env), step.store, step.calls)
  }

  /** Creating "Dune" and then reading it back by the returned identifier, with
      no authentication on the read, gives the title "Dune" and the caller as author. */
  lemma CreateThenRead(st: Store, env: Env, token: string, user: string, cover: UploadedFile, pdf: UploadedFile)
    requires Valid(st) && env.newId !in st.books
    requires token != "" && ' ' !in token && user != "" && env.verify(token) == Some(Claims(Some(user)))
    requires env.media.upload(NewCoverUpload(cover)).Some? && env.media.upload(PdfUpload(pdf)).Some?
    ensures
      var created := Serve(CreateRequest(Some("Bearer " + token), Fields(Some("Dune"), Some("scifi"), Some("...")),
                                         Files(Some(cover), Some(pdf))), st, env);
      && created.reply == Sent(201, IdBody(env.newId))
      && var read := Serve(GetRequest(env.newId), created.store, env);
      && read.reply.Sent? && read.reply.status == 200 && read.reply.body.BookBody?
      && read.reply.body.entry.book.title == "Dune"
      && read.reply.body.entry.book.author == user
  {
    BearerAuthenticates(token, env.verify, user);
  }

  /** A delete by someone other than the author is refused with 403, touches
      neither the store nor the media host, and the book stays readable. */
  lemma StrangerCannotDelete(st: Store, env: Env, id: string, token: string, stranger: string)
    requires id in st.books && st.books[id].author != stranger
    requires token != "" && ' ' !in token && env.verify(token) == Some(Claims(Some(stranger)))
    ensures
      var attempt := Serve(DeleteRequest(Some("Bearer " + token), id), st, env);
      && ReplyStatus(attempt.reply) == 403
      && attempt.store == st && attempt.calls == []
      && Serve(GetRequest(id), attempt.store, env).reply == Sent(200, BookBody(Entry(id, st.books[id])))
  {
    BearerAuthenticates(token, env.verify, stranger);
  }

  lemma DecimalSamples()
    ensures Decimal(0) == "0" && Decimal(1) == "1"
    ensures Decimal(100) == "100" && Decimal(500) == "500"
  {
    assert Decimal(10) == Decimal(1) + "0";
    assert Decimal(100) == Decimal(10) + "0";
    assert Decimal(50) == Decimal(5) + "0";
    assert Decimal(500) == Decimal(50) + "0";
  }

  lemma PageSamples()
    ensures PageOf(Some("0")) == 1 && PageOf(Some("1")) == 1
  {
    DecimalSamples();
    PageOfNumeral(0);
    PageOfNumeral(1);
  }

  lemma LimitSamples()
    ensures LimitOf(Some("500")) == 100 && LimitOf(Some("100")) == 100
  {
    DecimalSamples();
    LimitOfNumeral(500);
    LimitOfNumeral(100);
  }

  /** A page of "0" is the first page, and a limit of "500" is a limit of 100. */
  lemma PaginationBoundary(st: Store, caller: Option<string>)
    ensures ListBooks(st, caller, Some("0"), Some("500")) == ListBooks(st, caller, Some("1"), Some("100"))
  {
    PageSamples();
    LimitSamples();
  }
}

=== FILE: book_controller.dfy ===
/** The book request handlers: create, update, list, get one and delete, over
    the store of `BookStore` and the media host of `Media`. Each handler is a
    function of the current store, the caller identifier the authentication
    middleware attached (`None` when it attached nothing) and the request, and
    yields a `Step`: the outcome, the store afterwards and the media calls made. */
module BookController {
  import opened Wrappers
  import opened JsStrings
  import opened BookStore
  import opened Media
  import opened Http
  import opened PublicId
  import opened Pagination

  /** A file multer stored for the request. */
  datatype UploadedFile = UploadedFile(filename: string, mimetype: string)

  /** The `coverImage` and `file` fields of a multipart body. A body that is not
      multipart (JSON, say) has no such object at all: `Option<Files>` is `None`. */
  datatype Files = Files(coverImage: Option<UploadedFile>, file: Option<UploadedFile>)

  /** The text fields of the body; an absent field is `undefined`. */
  datatype Fields = Fields(title: Option<string>, genre: Option<string>, description: Option<string>)

  datatype Step = Step(outcome: Outcome, store: Store, calls: seq<Call>)

  const CreateFailed := "An error occurred while uploading the book cover."
  const NotFound := "Book not found"
  const NotFoundOne := "Book not found."
  const NotOwnerUpdate := "You cannot update another's book."
  const NotOwnerDelete := "You cannot delete another's book."
  const CoverFailed := "Error processing cover image."
  const PdfFailed := "Error processing book file."
  const CoverDestroyFailed := "Error deleting cover image."
  const PdfDestroyFailed := "Error deleting book file."
  const Unauthorized := "Unauthorized"
  const ListFailed := "Error while listing books."
  const UpdateFailed := "Error updating book."

  // ---------------------------------------------------------------------------
  // MIME types and upload requests

  const KnownMimeTypes := {"image/jpeg", "image/png", "application/pdf"}

  /** The file extension for a MIME type; "" for any type it does not know. */
  function MimeToExtension(mime: string): (ext: string)
    ensures ext == "jpg" <==> mime == "image/jpeg"
    ensures ext == "png" <==> mime == "image/png"
    ensures ext == "pdf" <==> mime == "application/pdf"
    ensures ext == "" <==> mime !in KnownMimeTypes
  {
    if mime == "image/jpeg" then "jpg"
    else if mime == "image/png" then "png"
    else if mime == "application/pdf" then "pdf"
    else ""
  }

  /** The cover upload of a new book: the `format` option is passed only when
      the MIME type has a known extension (`fileExtension || undefined`). */
  function NewCoverUpload(f: UploadedFile): (u: Upload)
    ensures u.folder == CoverFolder && !u.raw && u.filename == f.filename
    ensures u.format.Some? <==> f.mimetype in KnownMimeTypes
    ensures u.format.Some? ==> u.format.value == MimeToExtension(f.mimetype)
  {
    var ext := MimeToExtension(f.mimetype);
    Upload(f.filename, CoverFolder, if ext == "" then None else Some(ext), false)
  }

  /** The cover upload of a replacement: the `format` option is whatever follows
      the last "/" of the MIME type, always passed. */
  function ReplacementCoverUpload(f: UploadedFile): (u: Upload)
    ensures u.folder == CoverFolder && !u.raw && u.filename == f.filename
    ensures u.format.Some? && '/' !in u.format.value && TailAfter(u.format.value, f.mimetype, '/')
  {
    var parts := Split(f.mimetype, '/');
    SplitLast(f.mimetype, '/');
    JoinSplit(f.mimetype, '/');
    Upload(f.filename, CoverFolder, Some(Str(At(parts, -1))), false)
  }

  /** The upload of a book file: always raw, always with format "pdf". */
  function PdfUpload(f: UploadedFile): (u: Upload)
    ensures u.folder == PdfFolder && u.raw && u.format == Some("pdf") && u.filename == f.filename
  {
    Upload(f.filename, PdfFolder, Some("pdf"), true)
  }

  /** The destroy call for a book's current cover: an image, under the
      identifier recovered from its URL. */
  function CoverDestroy(b: Book): (d: Destroy)
    ensures !d.raw && d.publicId == CoverPublicId(b.coverImage)
  {
    Destroy(CoverPublicId(b.coverImage), false)
  }

  /** The destroy call for a book's current file: a raw resource, under the
      identifier recovered from its URL. */
  function PdfDestroy(b: Book): (d: Destroy)
    ensures d.raw && d.publicId == PdfPublicId(b.file)
  {
    Destroy(PdfPublicId(b.file), true)
  }

  /** A replacement cover of type `kind/sub` is uploaded with format `sub`, so
      "image/jpeg" gives "jpeg" where a new book's cover would get "jpg". */
  lemma ReplacementCoverFormat(f: UploadedFile, kind: string, sub: string)
    requires f.mimetype == kind + "/" + sub && '/' !in sub
    ensures ReplacementCoverUpload(f).format == Some(sub)
    ensures ReplacementCoverUpload(f).folder == CoverFolder && !ReplacementCoverUpload(f).raw
  {
    assert f.mimetype == kind + ['/'] + sub;
    SplitAround(kind, '/', sub);
    SplitSepFree(sub, '/');
  }

  // ---------------------------------------------------------------------------
  // createBook

  /** What the book schema accepts: the three text fields and the author present
      and non-empty. */
  predicate Persistable(fields: Fields, author: Option<string>) {
    && fields.title.Some? && fields.title.value != ""
    && fields.genre.Some? && fields.genre.value != ""
    && fields.description.Some? && fields.description.value != ""
    && author.Some? && author.value != ""
  }

  /** Upload the cover, then the file, then persist the book under the freshly
      generated identifier `newId`. Any failure answers 500 with a fixed message;
      the uploads already made are not undone. */
  function CreateBook(st: Store, caller: Option<string>, fields: Fields, files: Files, media: Host, newId: string): (r: Step)
    ensures r.outcome == Respond(201, IdBody(newId)) || r.outcome == Respond(500, MessageBody(CreateFailed))
    ensures r.outcome.status == 500 ==> r.store == st
    ensures files.coverImage.None? ==> r.calls == []
    ensures files.coverImage.Some? ==> |r.calls| >= 1 && r.calls[0] == Uploaded(NewCoverUpload(files.coverImage.value))
    ensures files.coverImage.Some? && media.upload(NewCoverUpload(files.coverImage.value)).None? ==>
      r.calls == [Uploaded(NewCoverUpload(files.coverImage.value))]
    ensures files.coverImage.Some? && media.upload(NewCoverUpload(files.coverImage.value)).Some? ==>
      r.calls == [Uploaded(NewCoverUpload(files.coverImage.value))]
                 + (if files.file.Some? then [Uploaded(PdfUpload(files.file.value))] else [])
    ensures files.file.None? ==> |r.calls| <= 1
    ensures forall i :: 0 <= i < |r.calls| ==> r.calls[i].Uploaded?
    ensures r.outcome.status == 201 <==>
      && files.coverImage.Some? && files.file.Some?
      && media.upload(NewCoverUpload(files.coverImage.value)).Some?
      && media.upload(PdfUpload(files.file.value)).Some?
      && Persistable(fields, caller)
      && newId !in st.books
    ensures r.outcome.status == 201 ==>
      && r.calls == [Uploaded(NewCoverUpload(files.coverImage.value)), Uploaded(PdfUpload(files.file.value))]
      && r.store.books.Keys == st.books.Keys + {newId}
      && (forall k :: k in st.books ==> r.store.books[k] == st.books[k])
      && r.store.order == [newId] + st.order
      && var b := r.store.books[newId];
      && Some(b.author) == caller
      && Some(b.title) == fields.title && Some(b.genre) == fields.genre && Some(b.description) == fields.description
      && media.upload(NewCoverUpload(files.coverImage.value)) == Some(b.coverImage)
      && media.upload(PdfUpload(files.file.value)) == Some(b.file)
    ensures Valid(st) ==> Valid(r.store)
  {
    var failed := Respond(500, MessageBody(CreateFailed));
    match files.coverImage
    case None => Step(failed, st, [])
    case Some(coverFile) =>
      var cu := NewCoverUpload(coverFile);
      match media.upload(cu)
      case None => Step(failed, st, [Uploaded(cu)])
      case Some(coverUrl) =>
        match files.file
        case None => Step(failed, st, [Uploaded(cu)])
        case Some(pdfFile) =>
          var pu := PdfUpload(pdfFile);
          var calls := [Uploaded(cu), Uploaded(pu)];
          match media.upload(pu)
          case None => Step(failed, st, calls)
          case Some(pdfUrl) =>
            if !Persistable(fields, caller) || newId in st.books then Step(failed, st, calls)
            else
              var b := Book(fields.title.value, fields.genre.value, fields.description.value,
                            caller.value, coverUrl, pdfUrl);
              Step(Respond(201, IdBody(newId)), Insert(st, newId, b), calls)
  }

  // ---------------------------------------------------------------------------
  // updateBook

  /** The caller may change the book `id`: it exists and the caller wrote it. */
  predicate Owns(st: Store, id: string, caller: Option<string>) {
    id in st.books && caller == Some(st.books[id].author)
  }

  /** One asset's replacement: the URL to keep (`None` when a step threw) and
      the calls made. Without a new file nothing is called and `current` stays. */
  datatype AssetStep = AssetStep(url: Option<string>, calls: seq<Call>)

  function ReplaceAsset(current: string, replacement: Option<Upload>, stale: Destroy, media: Host): AssetStep {
    match replacement
    case None => AssetStep(Some(current), [])
    case Some(u) =>
      if !media.destroy(stale) then AssetStep(None, [Destroyed(stale)])
      else AssetStep(media.upload(u), [Destroyed(stale), Uploaded(u)])
  }

  function CoverStep(b: Book, f: Option<UploadedFile>, media: Host): AssetStep {
    ReplaceAsset(b.coverImage, if f.Some? then Some(ReplacementCoverUpload(f.value)) else None, CoverDestroy(b), media)
  }

  function PdfStep(b: Book, f: Option<UploadedFile>, media: Host): AssetStep {
    ReplaceAsset(b.file, if f.Some? then Some(PdfUpload(f.value)) else None, PdfDestroy(b), media)
  }

  /** An asset step succeeded: with no new file it keeps the URL; with one, the
      old asset was destroyed and the new upload gave the URL. */
  predicate AssetReplaced(current: string, url: string, f: Option<UploadedFile>, d: Destroy, u: UploadedFile -> Upload, media: Host) {
    match f
    case None => url == current
    case Some(file) => media.destroy(d) && media.upload(u(file)) == Some(url)
  }

  /** An asset step failed: a new file came, and either destroying the old
      asset or uploading the new one did not go through. */
  predicate StepFails(f: Option<UploadedFile>, d: Destroy, u: UploadedFile -> Upload, media: Host) {
    f.Some? && (!media.destroy(d) || media.upload(u(f.value)).None?)
  }

  /** The calls of an asset step that failed: the destroy, and the upload only
      when the destroy went through. */
  function FailedStepCalls(d: Destroy, up: Upload, media: Host): (calls: seq<Call>)
    ensures |calls| >= 1 && calls[0] == Destroyed(d)
    ensures |calls| == 2 <==> media.destroy(d)
    ensures |calls| == 1 <==> !media.destroy(d)
  {
    if media.destroy(d) then [Destroyed(d), Uploaded(up)] else [Destroyed(d)]
  }

  /** Look the book up, refuse strangers, replace the cover and then the file
      when new ones came with the request, and write the merged book. A body
      that is not multipart makes the handler throw once it reaches the files,
      which its outer `catch` answers with a 500. */
  function UpdateBook(st: Store, id: string, caller: Option<string>, fields: Fields, files: Option<Files>, media: Host): (r: Step)
    ensures id !in st.books <==> r.outcome == Forward(HttpError(404, NotFound))
    ensures id in st.books && !Owns(st, id, caller) <==> r.outcome == Forward(HttpError(403, NotOwnerUpdate))
    ensures !Owns(st, id, caller) ==> r.store == st && r.calls == []
    ensures r.outcome.Forward? ==> r.store == st
    ensures Owns(st, id, caller) && files.None? <==> r.outcome == Forward(HttpError(500, UpdateFailed))
    ensures files.None? ==> r.calls == []
    ensures
      (&& Owns(st, id, caller) && files.Some?
       && StepFails(files.value.coverImage, CoverDestroy(st.books[id]), ReplacementCoverUpload, media))
      <==> r.outcome == Forward(HttpError(500, CoverFailed))
    ensures
      (&& Owns(st, id, caller) && files.Some?
       && !StepFails(files.value.coverImage, CoverDestroy(st.books[id]), ReplacementCoverUpload, media)
       && StepFails(files.value.file, PdfDestroy(st.books[id]), PdfUpload, media))
      <==> r.outcome == Forward(HttpError(500, PdfFailed))
    ensures
      (&& Owns(st, id, caller) && files.Some?
       && !StepFails(files.value.coverImage, CoverDestroy(st.books[id]), ReplacementCoverUpload, media)
       && !StepFails(files.value.file, PdfDestroy(st.books[id]), PdfUpload, media))
      <==> r.outcome.Respond?
    ensures Owns(st, id, caller) && files.Some? ==> r == UpdateOwnBook(st, id, fields, files.value, media)
    ensures Valid(st) ==> Valid(r.store)
  {
    if id !in st.books then Step(Forward(HttpError(404, NotFound)), st, [])
    else
      var prev := st.books[id];
      if caller != Some(prev.author) then Step(Forward(HttpError(403, NotOwnerUpdate)), st, [])
      else
        match files
        case None => Step(Forward(HttpError(500, UpdateFailed)), st, [])
        case Some(fs) => UpdateOwnBook(st, id, fields, fs, media)
  }

  /** `updateBook` once the caller is known to be the author and the multipart
      files are at hand: the cover step, then the file step, then the write. */
  function UpdateOwnBook(st: Store, id: string, fields: Fields, fs: Files, media: Host): (r: Step)
    requires id in st.books
    ensures r.outcome.Forward? ==> r.store == st
    ensures r.outcome.Forward? ==> r.outcome == Forward(HttpError(500, CoverFailed)) || r.outcome == Forward(HttpError(500, PdfFailed))
    ensures StepFails(fs.coverImage, CoverDestroy(st.books[id]), ReplacementCoverUpload, media)
      <==> r.outcome == Forward(HttpError(500, CoverFailed))
    ensures r.outcome == Forward(HttpError(500, CoverFailed)) ==>
      && fs.coverImage.Some?
      && r.calls == FailedStepCalls(CoverDestroy(st.books[id]), ReplacementCoverUpload(fs.coverImage.value), media)
    ensures
      (&& !StepFails(fs.coverImage, CoverDestroy(st.books[id]), ReplacementCoverUpload, media)
       && StepFails(fs.file, PdfDestroy(st.books[id]), PdfUpload, media))
      <==> r.outcome == Forward(HttpError(500, PdfFailed))
    ensures r.outcome == Forward(HttpError(500, PdfFailed)) ==>
      && fs.file.Some?
      && var prev := st.books[id];
      && r.calls ==
           (if fs.coverImage.Some?
            then [Destroyed(CoverDestroy(prev)), Uploaded(ReplacementCoverUpload(fs.coverImage.value))]
            else [])
         + FailedStepCalls(PdfDestroy(prev), PdfUpload(fs.file.value), media)
    ensures r.outcome.Respond? ==>
      && r.store.books.Keys == st.books.Keys && r.store.order == st.order
      && r.outcome == Respond(200, BookBody(Entry(id, r.store.books[id])))
      && (forall k :: k in st.books && k != id ==> r.store.books[k] == st.books[k])
      && var prev, nb := st.books[id], r.store.books[id];
      && nb.author == prev.author
      && nb.title == fields.title.GetOr(prev.title)
      && nb.genre == fields.genre.GetOr(prev.genre)
      && nb.description == fields.description.GetOr(prev.description)
      && AssetReplaced(prev.coverImage, nb.coverImage, fs.coverImage, CoverDestroy(prev), ReplacementCoverUpload, media)
      && AssetReplaced(prev.file, nb.file, fs.file, PdfDestroy(prev), PdfUpload, media)
      && |r.calls| == (if fs.coverImage.Some? then 2 else 0) + (if fs.file.Some? then 2 else 0)
      && (fs.coverImage.Some? ==>
            r.calls[..2] == [Destroyed(CoverDestroy(prev)), Uploaded(ReplacementCoverUpload(fs.coverImage.value))])
      && (fs.file.Some? ==>
            r.calls[|r.calls| - 2..] == [Destroyed(PdfDestroy(prev)), Uploaded(PdfUpload(fs.file.value))])
    ensures Valid(st) ==> Valid(r.store)
  {
    var prev := st.books[id];
    var c := CoverStep(prev, fs.coverImage, media);
    match c.url
    case None => Step(Forward(HttpError(500, CoverFailed)), st, c.calls)
    case Some(coverUrl) =>
      var p := PdfStep(prev, fs.file, media);
      match p.url
      case None => Step(Forward(HttpError(500, PdfFailed)), st, c.calls + p.calls)
      case Some(pdfUrl) =>
        var nb := Book(fields.title.GetOr(prev.title), fields.genre.GetOr(prev.genre),
                       fields.description.GetOr(prev.description), prev.author, coverUrl, pdfUrl);
        Step(Respond(200, BookBody(Entry(id, nb))), Replace(st, id, nb), c.calls + p.calls)
  }

  // ---------------------------------------------------------------------------
  // listBooks

  /** `p` is page `page` of size `limit` over `owned`: the run of `owned`
      starting at `(page - 1) * limit`, `abs(limit)` long or up to the end of
      `owned` if that comes first, with the total count, the page count rounded
      up and the page number. */
  predicate IsPageOf(p: Body, owned: seq<Entry>, page: int, limit: int)
    requires limit != 0
  {
    var skip := (page - 1) * limit;
    && p.PageBody?
    && p.currentPage == page
    && p.totalBooks == |owned|
    && IsCeilQuotient(p.totalPages, |owned|, limit)
    && skip >= 0
    && |p.books| == (if skip >= |owned| then 0 else if |owned| - skip < Abs(limit) then |owned| - skip else Abs(limit))
    && |p.books| <= Abs(limit)
    && (limit > 0 ==> page >= 1 && page * limit >= |p.books|)
    && (forall i :: 0 <= i < |p.books| ==>
          0 <= (page - 1) * limit + i < |owned| && p.books[i] == owned[(page - 1) * limit + i])
  }

  /** The response body for page `page` of size `limit` over `owned`; `None`
      when the offset `(page - 1) * limit` is negative and the store refuses it. */
  function Paginate(owned: seq<Entry>, page: int, limit: int): (r: Option<Body>)
    requires limit != 0
    ensures r.None? <==> (page - 1) * limit < 0
    ensures r.Some? ==> IsPageOf(r.value, owned, page, limit)
  {
    var skip := (page - 1) * limit;
    match Window(owned, skip, limit)
    case None => None
    case Some(books) =>
      assert limit > 0 ==> page >= 1;
      assert limit > 0 ==> page * limit >= limit;
      Some(PageBody(|owned|, TotalPages(|owned|, limit), page, books))
  }

  /** One page of the caller's books, newest first, with the paging figures. */
  function ListBooks(st: Store, caller: Option<string>, pageQuery: Option<string>, limitQuery: Option<string>): (r: Step)
    ensures r.store == st && r.calls == []
    ensures caller.None? || caller == Some("") <==> r.outcome == Forward(HttpError(401, Unauthorized))
    ensures r.outcome.Forward? ==> r.outcome.err.status == 401 || r.outcome.err == HttpError(500, ListFailed)
    ensures r.outcome == Forward(HttpError(500, ListFailed)) <==>
      caller.Some? && caller.value != "" && (PageOf(pageQuery) - 1) * LimitOf(limitQuery) < 0
    ensures r.outcome.Respond? ==>
      && caller.Some? && r.outcome.status == 200
      && IsPageOf(r.outcome.body, Owned(st.books, st.order, caller.value), PageOf(pageQuery), LimitOf(limitQuery))
      && (Valid(st) ==> r.outcome.body.totalBooks == |OwnedKeys(st.books, caller.value)|)
      && (forall i :: 0 <= i < |r.outcome.body.books| ==>
            && r.outcome.body.books[i].id in st.books
            && st.books[r.outcome.body.books[i].id] == r.outcome.body.books[i].book
            && r.outcome.body.books[i].book.author == caller.value)
  {
    if caller.None? || caller.value == "" then Step(Forward(HttpError(401, Unauthorized)), st, [])
    else ListPage(st, caller.value, PageOf(pageQuery), LimitOf(limitQuery))
  }

  /** The listing once the caller and the paging figures are known. */
  function ListPage(st: Store, caller: string, page: int, limit: int): (r: Step)
    requires limit != 0
    ensures r.store == st && r.calls == []
    ensures r.outcome.Forward? <==> (page - 1) * limit < 0
    ensures r.outcome.Forward? ==> r.outcome.err == HttpError(500, ListFailed)
    ensures r.outcome.Respond? ==>
      && r.outcome.status == 200
      && IsPageOf(r.outcome.body, Owned(st.books, st.order, caller), page, limit)
      && (Valid(st) ==> r.outcome.body.totalBooks == |OwnedKeys(st.books, caller)|)
      && (forall i :: 0 <= i < |r.outcome.body.books| ==>
            && r.outcome.body.books[i].id in st.books
            && st.books[r.outcome.body.books[i].id] == r.outcome.body.books[i].book
            && r.outcome.body.books[i].book.author == caller)
  {
    var owned := Owned(st.books, st.order, caller);
    assert Valid(st) ==> |owned| == |OwnedKeys(st.books, caller)| by {
      if Valid(st) { OwnedCount(st, caller); }
    }
    match Paginate(owned, page, limit)
    case None => Step(Forward(HttpError(500, ListFailed)), st, [])
    case Some(body) => Step(Respond(200, body), st, [])
  }

  // ---------------------------------------------------------------------------
  // getOneBook

  /** Anyone may read any book. */
  function GetOneBook(st: Store, id: string): (r: Step)
    ensures r.store == st && r.calls == []
    ensures id in st.books <==> r.outcome.Respond?
    ensures id in st.books ==> r.outcome == Respond(200, BookBody(Entry(id, st.books[id])))
    ensures id !in st.books <==> r.outcome == Forward(HttpError(404, NotFoundOne))
  {
    if id in st.books then Step(Respond(200, BookBody(Entry(id, st.books[id]))), st, [])
    else Step(Forward(HttpError(404, NotFoundOne)), st, [])
  }

  // ---------------------------------------------------------------------------
  // deleteBook

  /** Look the book up, refuse strangers, destroy the cover, then the file, and
      only then remove the record. */
  function DeleteBook(st: Store, id: string, caller: Option<string>, media: Host): (r: Step)
    ensures id !in st.books <==> r.outcome == Forward(HttpError(404, NotFound))
    ensures id in st.books && !Owns(st, id, caller) <==> r.outcome == Forward(HttpError(403, NotOwnerDelete))
    ensures !Owns(st, id, caller) ==> r.store == st && r.calls == []
    ensures r.outcome == Forward(HttpError(500, CoverDestroyFailed)) <==>
      Owns(st, id, caller) && !media.destroy(CoverDestroy(st.books[id]))
    ensures r.outcome == Forward(HttpError(500, PdfDestroyFailed)) <==>
      Owns(st, id, caller) && media.destroy(CoverDestroy(st.books[id])) && !media.destroy(PdfDestroy(st.books[id]))
    ensures r.outcome == Forward(HttpError(500, CoverDestroyFailed)) ==>
      r.calls == [Destroyed(CoverDestroy(st.books[id]))]
    ensures r.outcome == Forward(HttpError(500, PdfDestroyFailed)) ==>
      r.calls == [Destroyed(CoverDestroy(st.books[id])), Destroyed(PdfDestroy(st.books[id]))]
    ensures r.outcome.Forward? ==> r.store == st
    ensures r.outcome.Respond? <==> r.store != st
    ensures r.outcome.Respond? ==>
      && Owns(st, id, caller)
      && r.outcome == Respond(204, NoBody)
      && r.calls == [Destroyed(CoverDestroy(st.books[id])), Destroyed(PdfDestroy(st.books[id]))]
      && media.destroy(CoverDestroy(st.books[id])) && media.destroy(PdfDestroy(st.books[id]))
      && r.store.books.Keys == st.books.Keys - {id}
      && (forall k :: k in r.store.books ==> r.store.books[k] == st.books[k])
      && (Valid(st) ==>
            exists k :: 0 <= k < |st.order| && st.order[k] == id && r.store.order == st.order[..k] + st.order[k + 1..])
    ensures Valid(st) ==> Valid(r.store)
  {
    if id !in st.books then Step(Forward(HttpError(404, NotFound)), st, [])
    else
      var b := st.books[id];
      if caller != Some(b.author) then Step(Forward(HttpError(403, NotOwnerDelete)), st, [])
      else
        var cd, pd := CoverDestroy(b), PdfDestroy(b);
        if !media.destroy(cd) then Step(Forward(HttpError(500, CoverDestroyFailed)), st, [Destroyed(cd)])
        else if !media.destroy(pd) then Step(Forward(HttpError(500, PdfDestroyFailed)), st, [Destroyed(cd), Destroyed(pd)])
        else
          var r := Remove(st, id);
          assert id in st.books && id !in r.books;
          Step(Respond(204, NoBody), r, [Destroyed(cd), Destroyed(pd)])
  }
}

=== FILE: book_store.dfy ===
/** The document store, reduced to what the book service observes: a map from
    book identifier to book, together with the identifiers in creation order,
    newest first (the order the listing's `createdAt` descending sort yields). */
module BookStore {

  /** A stored book. `author` is the identifier of the user who created it. */
  datatype Book = Book(
    title: string,
    genre: string,
    description: string,
    author: string,
    coverImage: string,
    file: string)

  /** A book as returned to a client: its identifier and its fields. */
  datatype Entry = Entry(id: string, book: Book)

  datatype Store = Store(books: map<string, Book>, order: seq<string>)

  predicate NoDup(xs: seq<string>) {
    forall i, j :: 0 <= i < j < |xs| ==> xs[i] != xs[j]
  }

  /** `order` lists every stored identifier exactly once. */
  predicate Valid(st: Store) {
    && NoDup(st.order)
    && (forall i :: 0 <= i < |st.order| ==> st.order[i] in st.books)
    && (forall id :: id in st.books ==> id in st.order)
  }

  /** Persist a new book; it becomes the most recent one. */
  function Insert(st: Store, id: string, b: Book): (r: Store)
    requires id !in st.books
    ensures r.books.Keys == st.books.Keys + {id} && r.books[id] == b
    ensures forall k :: k in st.books ==> r.books[k] == st.books[k]
    ensures r.order == [id] + st.order
    ensures Valid(st) ==> Valid(r)
  {
    Store(st.books[id := b], [id] + st.order)
  }

  /** Overwrite an existing book; the order is untouched. */
  function Replace(st: Store, id: string, b: Book): (r: Store)
    requires id in st.books
    ensures r.books.Keys == st.books.Keys && r.books[id] == b
    ensures forall k :: k in st.books && k != id ==> r.books[k] == st.books[k]
    ensures r.order == st.order
    ensures Valid(st) ==> Valid(r)
  {
    Store(st.books[id := b], st.order)
  }

  /** `r` is `xs` without `x`, the rest in the same order: when `x` occurs once,
      `r` is `xs` with that one position cut out. */
  ghost predicate RemovedFrom(r: seq<string>, xs: seq<string>, x: string) {
    && (forall y :: y in r <==> y in xs && y != x)
    && (NoDup(xs) ==> NoDup(r))
    && |r| <= |xs|
    && (x !in xs ==> r == xs)
    && (NoDup(xs) && x in xs ==> exists k :: 0 <= k < |xs| && xs[k] == x && r == xs[..k] + xs[k + 1..])
  }

  /** `xs` without `x`, the rest in the same order. */
  function RemoveId(xs: seq<string>, x: string): (r: seq<string>)
    ensures forall y :: y in r <==> y in xs && y != x
    ensures NoDup(xs) ==> NoDup(r)
    ensures |r| <= |xs|
    ensures x !in xs ==> r == xs
    ensures NoDup(xs) && x in xs ==> exists k :: 0 <= k < |xs| && xs[k] == x && r == xs[..k] + xs[k + 1..]
  {
    if |xs| == 0 then []
    else
      var rest := RemoveId(xs[1..], x);
      RemoveStep(xs, x, rest);
      if xs[0] == x then rest else [xs[0]] + rest
  }

  /** One step of `RemoveId`: removing `x` from the tail and keeping the head
      unless it is `x` removes `x` from the whole sequence. */
  lemma RemoveStep(xs: seq<string>, x: string, rest: seq<string>)
    requires |xs| > 0 && RemovedFrom(rest, xs[1..], x)
    ensures RemovedFrom(if xs[0] == x then rest else [xs[0]] + rest, xs, x)
  {
    if xs[0] == x {
      DropHead(xs, x, rest);
    } else {
      KeepHead(xs, x, rest);
    }
  }

  lemma DropHead(xs: seq<string>, x: string, rest: seq<string>)
    requires |xs| > 0 && xs[0] == x && RemovedFrom(rest, xs[1..], x)
    ensures RemovedFrom(rest, xs, x)
  {
    assert xs == [xs[0]] + xs[1..];
    if NoDup(xs) {
      assert x !in xs[1..];
      assert rest == xs[..0] + xs[0 + 1..];
    }
  }

  lemma KeepHead(xs: seq<string>, x: string, rest: seq<string>)
    requires |xs| > 0 && xs[0] != x && RemovedFrom(rest, xs[1..], x)
    ensures RemovedFrom([xs[0]] + rest, xs, x)
  {
    assert xs == [xs[0]] + xs[1..];
    if NoDup(xs) {
      assert xs[0] !in xs[1..] && NoDup(xs[1..]);
      NoDupCons(xs[0], rest);
      if x in xs {
        assert x in xs[1..];
        KeepHeadCut(xs, x, rest);
      }
    }
  }

  lemma KeepHeadCut(xs: seq<string>, x: string, rest: seq<string>)
    requires |xs| > 0
    requires exists k :: 0 <= k < |xs| - 1 && xs[1..][k] == x && rest == xs[1..][..k] + xs[1..][k + 1..]
    ensures exists k :: 0 <= k < |xs| && xs[k] == x && [xs[0]] + rest == xs[..k] + xs[k + 1..]
  {
    var k :| 0 <= k < |xs| - 1 && xs[1..][k] == x && rest == xs[1..][..k] + xs[1..][k + 1..];
    CutCons(xs, k);
    assert xs[k + 1] == x;
  }

  lemma NoDupCons(h: string, t: seq<string>)
    requires h !in t && NoDup(t)
    ensures NoDup([h] + t)
  {
    var r := [h] + t;
    forall i, j | 0 <= i < j < |r| ensures r[i] != r[j] {
      if i == 0 { assert r[j] == t[j - 1]; } else { assert r[i] == t[i - 1] && r[j] == t[j - 1]; }
    }
  }

  /** Cutting position `k` out of the tail of `xs` and putting the head back
      is cutting position `k + 1` out of `xs`. */
  lemma CutCons(xs: seq<string>, k: int)
    requires 0 <= k < |xs| - 1
    ensures [xs[0]] + (xs[1..][..k] + xs[1..][k + 1..]) == xs[..k + 1] + xs[k + 2..]
  {
    assert xs[..k + 1] == [xs[0]] + xs[1..][..k];
    assert xs[k + 2..] == xs[1..][k + 1..];
  }

  /** Delete a book; every other book is untouched, and the other identifiers
      keep their order. */
  function Remove(st: Store, id: string): (r: Store)
    ensures r.books.Keys == st.books.Keys - {id}
    ensures forall k :: k in r.books ==> r.books[k] == st.books[k]
    ensures id !in st.order ==> r.order == st.order
    ensures NoDup(st.order) && id in st.order ==>
      exists k :: 0 <= k < |st.order| && st.order[k] == id && r.order == st.order[..k] + st.order[k + 1..]
    ensures Valid(st) ==> Valid(r)
  {
    var r := Store(st.books - {id}, RemoveId(st.order, id));
    assert Valid(st) ==> forall i :: 0 <= i < |r.order| ==> r.order[i] in r.books by {
      if Valid(st) {
        forall i | 0 <= i < |r.order| ensures r.order[i] in r.books {
          assert r.order[i] in RemoveId(st.order, id);
        }
      }
    }
    r
  }

  /** The identifiers of a sequence of entries. */
  function Ids(es: seq<Entry>): (r: seq<string>)
    ensures |r| == |es| && forall i :: 0 <= i < |es| ==> r[i] == es[i].id
  {
    if |es| == 0 then [] else [es[0].id] + Ids(es[1..])
  }

  /** The books among `ids` whose author is `caller`, in the order of `ids`
      (the `find({ author })` query). */
  function Owned(books: map<string, Book>, ids: seq<string>, caller: string): (r: seq<Entry>)
    ensures |r| <= |ids|
    ensures forall i :: 0 <= i < |r| ==>
      r[i].id in ids && r[i].id in books && books[r[i].id] == r[i].book && r[i].book.author == caller
    ensures forall id :: id in ids && id in books && books[id].author == caller ==> id in Ids(r)
  {
    if |ids| == 0 then []
    else
      var rest := Owned(books, ids[1..], caller);
      if ids[0] in books && books[ids[0]].author == caller then
        var r := [Entry(ids[0], books[ids[0]])] + rest;
        assert r[1..] == rest;
        assert Ids(r) == [ids[0]] + Ids(rest);
        r
      else rest
  }

  /** The filter of a one-element sequence: the entry when `x` is a stored book
      by `caller`, nothing otherwise. */
  lemma OwnedOne(books: map<string, Book>, x: string, caller: string)
    ensures Owned(books, [x], caller) ==
      if x in books && books[x].author == caller then [Entry(x, books[x])] else []
  {
    assert [x][1..] == [];
  }

  /** The filter keeps the order of `ids`: filtering a concatenation is
      concatenating the filters. With `OwnedOne`, this fixes the result as the
      matching entries in the order of `ids`. */
  lemma {:induction false} OwnedAppend(books: map<string, Book>, xs: seq<string>, ys: seq<string>, caller: string)
    ensures Owned(books, xs + ys, caller) == Owned(books, xs, caller) + Owned(books, ys, caller)
    decreases |xs|
  {
    if |xs| == 0 {
      assert xs + ys == ys;
    } else {
      assert (xs + ys)[0] == xs[0];
      assert (xs + ys)[1..] == xs[1..] + ys;
      OwnedAppend(books, xs[1..], ys, caller);
    }
  }

  /** The identifiers of the books `caller` wrote (the `countDocuments({ author })` query). */
  function OwnedKeys(books: map<string, Book>, caller: string): set<string> {
    set id | id in books && books[id].author == caller
  }

  /** The identifiers among `ids` of books `caller` wrote. */
  function OwnedAmong(books: map<string, Book>, ids: seq<string>, caller: string): set<string> {
    set id | id in ids && id in books && books[id].author == caller
  }

  lemma OwnedAmongStep(books: map<string, Book>, ids: seq<string>, caller: string)
    requires |ids| > 0
    ensures OwnedAmong(books, ids, caller) ==
      (if ids[0] in books && books[ids[0]].author == caller then {ids[0]} else {}) + OwnedAmong(books, ids[1..], caller)
  {
    assert forall id :: id in ids <==> id == ids[0] || id in ids[1..] by {
      assert ids == [ids[0]] + ids[1..];
    }
  }

  lemma {:induction false} OwnedCountAmong(books: map<string, Book>, ids: seq<string>, caller: string)
    requires NoDup(ids)
    ensures |Owned(books, ids, caller)| == |OwnedAmong(books, ids, caller)|
    decreases |ids|
  {
    if |ids| == 0 {
      assert OwnedAmong(books, ids, caller) == {};
    } else {
      assert NoDup(ids[1..]);
      OwnedCountAmong(books, ids[1..], caller);
      OwnedAmongStep(books, ids, caller);
      assert ids[0] !in OwnedAmong(books, ids[1..], caller);
    }
  }

  /** In a well-formed store, the listing query returns exactly as many books as
      the counting query counts. */
  lemma OwnedCount(st: Store, caller: string)
    requires Valid(st)
    ensures |Owned(st.books, st.order, caller)| == |OwnedKeys(st.books, caller)|
  {
    OwnedCountAmong(st.books, st.order, caller);
    assert OwnedAmong(st.books, st.order, caller) == OwnedKeys(st.books, caller);
  }
}

=== FILE: error_handler.dfy ===
/** The global error handler: turns an error that reached `next(err)` into the
    JSON reply `{ success, message, errorStack }` with the error's status code. */
module ErrorHandler {
  import opened Wrappers
  import opened Http

  /** The parts of a thrown error the handler reads; any may be absent. */
  datatype ErrorValue = ErrorValue(statusCode: Option<int>, message: Option<string>, stack: Option<string>)

  /** The reply; an absent `errorStack` is a key JSON leaves out. */
  datatype ErrorReply = ErrorReply(status: int, success: bool, message: string, errorStack: Option<string>)

  const DefaultStatus := 500
  const DefaultMessage := "An unexpected error occurred"
  const Development := "development"

  function HandleError(err: ErrorValue, env: string): (r: ErrorReply)
    ensures !r.success
    ensures r.status != 0
    ensures err.statusCode.Some? && err.statusCode.value != 0 ==> r.status == err.statusCode.value
    ensures err.statusCode.None? || err.statusCode == Some(0) ==> r.status == DefaultStatus
    ensures r.message != ""
    ensures err.message.Some? && err.message.value != "" ==> r.message == err.message.value
    ensures err.message.None? || err.message == Some("") ==> r.message == DefaultMessage
    ensures env == Development ==> r.errorStack == err.stack
    ensures env != Development ==> r.errorStack == Some("")
  {
    var status := if err.statusCode.None? || err.statusCode.value == 0 then DefaultStatus else err.statusCode.value;
    var message := if err.message.None? || err.message.value == "" then DefaultMessage else err.message.value;
    ErrorReply(status, false, message, if env == Development then err.stack else Some(""))
  }

  /** An error built by `createHttpError(status, message)`. */
  function FromHttpError(e: HttpError, stack: string): ErrorValue {
    ErrorValue(Some(e.status), Some(e.message), Some(stack))
  }

  /** An HTTP error with a real status and message reaches the client intact,
      with the stack only in development. */
  lemma HttpErrorRendered(e: HttpError, stack: string, env: string)
    requires e.status != 0 && e.message != ""
    ensures HandleError(FromHttpError(e, stack), env).status == e.status
    ensures HandleError(FromHttpError(e, stack), env).message == e.message
    ensures HandleError(FromHttpError(e, stack), env).errorStack == if env == Development then Some(stack) else Some("")
  {
  }
}

=== FILE: http.dfy ===
/** What a request handler produces: either it answers itself (`Respond`), or it
    passes an error created with `createHttpError(status, message)` to `next`
    (`Forward`), which the global error handler then renders. */
module Http {
  import opened BookStore

  datatype HttpError = HttpError(status: int, message: string)

  datatype Body =
    | IdBody(id: string)
    | BookBody(entry: Entry)
    | PageBody(totalBooks: nat, totalPages: int, currentPage: int, books: seq<Entry>)
    | MessageBody(message: string)
    | NoBody

  datatype Outcome = Respond(status: int, body: Body) | Forward(err: HttpError)
}

=== FILE: js_strings.dfy ===
/** The few JavaScript string and array primitives the book service relies on,
    written out with their exact JavaScript behaviour: `String.prototype.split`
    on a one-character separator, `Array.prototype.at` with negative indices,
    string concatenation of a possibly `undefined` value, and `parseInt`. */
module JsStrings {
  import opened Wrappers

  // ---------------------------------------------------------------------------
  // split / join

  /** The position of the first `c` in `s`. */
  function FirstIndex(s: string, c: char): (i: nat)
    requires c in s
    ensures i < |s| && s[i] == c && c !in s[..i]
  {
    if s[0] == c then 0
    else
      assert c in s[1..] by { assert s == [s[0]] + s[1..]; }
      var j := FirstIndex(s[1..], c);
      assert s[..j + 1] == [s[0]] + s[1..][..j];
      j + 1
  }

  /** `s.split(sep)`: the pieces between successive occurrences of `sep`.
      JavaScript never returns an empty array here: `"".split("/")` is `[""]`. */
  function Split(s: string, sep: char): (parts: seq<string>)
    ensures |parts| >= 1
    decreases |s|
  {
    if sep !in s then [s]
    else
      var i := FirstIndex(s, sep);
      [s[..i]] + Split(s[i + 1..], sep)
  }

  /** `parts.join(sep)`, the inverse of `Split`. */
  function Join(parts: seq<string>, sep: char): string
    requires |parts| >= 1
  {
    if |parts| == 1 then parts[0] else parts[0] + [sep] + Join(parts[1..], sep)
  }

  /** No piece contains the separator. */
  predicate SepFree(parts: seq<string>, sep: char) {
    forall i :: 0 <= i < |parts| ==> sep !in parts[i]
  }

  /** Splitting and re-joining gives back the string, and no piece holds `sep`. */
  lemma {:induction false} JoinSplit(s: string, sep: char)
    ensures Join(Split(s, sep), sep) == s
    ensures SepFree(Split(s, sep), sep)
    decreases |s|
  {
    if sep in s {
      var i := FirstIndex(s, sep);
      var rest := Split(s[i + 1..], sep);
      JoinSplit(s[i + 1..], sep);
      var parts := Split(s, sep);
      assert parts == [s[..i]] + rest && parts[1..] == rest;
      assert s == s[..i] + [sep] + s[i + 1..];
    }
  }

  /** A string without the separator is a single piece. */
  lemma SplitSepFree(s: string, sep: char)
    requires sep !in s
    ensures Split(s, sep) == [s]
  {
  }

  /** `Split` of a string holding the separator: the piece before its first
      occurrence, then the pieces of the rest. */
  lemma SplitUnfold(s: string, sep: char)
    requires sep in s
    ensures Split(s, sep) == [s[..FirstIndex(s, sep)]] + Split(s[FirstIndex(s, sep) + 1..], sep)
  {
  }

  /** Any first occurrence of `sep` is where `Split` cuts. */
  lemma SplitAt(s: string, sep: char, k: nat, head: string, rest: string)
    requires k < |s| && s[k] == sep && sep !in s[..k]
    requires head == s[..k] && rest == s[k + 1..]
    ensures Split(s, sep) == [head] + Split(rest, sep)
  {
    SplitUnfold(s, sep);
  }

  /** When `a` already holds `sep`, the first cut of `a + [sep] + b` falls inside `a`. */
  lemma SplitAtFirstOf(a: string, sep: char, b: string)
    requires sep in a
    ensures Split(a + [sep] + b, sep)
         == [a[..FirstIndex(a, sep)]] + Split(a[FirstIndex(a, sep) + 1..] + [sep] + b, sep)
  {
    var s := a + [sep] + b;
    var k := FirstIndex(a, sep);
    assert s[..k] == a[..k];
    assert s[k + 1..] == a[k + 1..] + [sep] + b;
    SplitAt(s, sep, k, a[..k], a[k + 1..] + [sep] + b);
  }

  lemma SplitAroundFirst(a: string, sep: char, b: string)
    requires sep in a
    requires Split(a[FirstIndex(a, sep) + 1..] + [sep] + b, sep) == Split(a[FirstIndex(a, sep) + 1..], sep) + Split(b, sep)
    ensures Split(a + [sep] + b, sep) == Split(a, sep) + Split(b, sep)
  {
    var k := FirstIndex(a, sep);
    var rest := a[k + 1..] + [sep] + b;
    SplitAtFirstOf(a, sep, b);
    SplitUnfold(a, sep);
    Glue(Split(a + [sep] + b, sep), a[..k], Split(rest, sep), Split(a, sep), Split(a[k + 1..], sep), Split(b, sep));
  }

  lemma Glue<T>(whole: seq<T>, x: T, tail: seq<T>, front: seq<T>, p: seq<T>, q: seq<T>)
    requires whole == [x] + tail && tail == p + q && front == [x] + p
    ensures whole == front + q
  {
  }

  lemma SplitAroundLast(a: string, sep: char, b: string)
    requires sep !in a
    ensures Split(a + [sep] + b, sep) == Split(a, sep) + Split(b, sep)
  {
    var s := a + [sep] + b;
    assert s[..|a|] == a && s[|a| + 1..] == b;
    SplitAt(s, sep, |a|, a, b);
    SplitSepFree(a, sep);
  }

  /** Splitting at one occurrence of the separator splits the pieces apart. */
  lemma {:induction false} SplitAround(a: string, sep: char, b: string)
    ensures Split(a + [sep] + b, sep) == Split(a, sep) + Split(b, sep)
    decreases |a|
  {
    if sep in a {
      SplitAround(a[FirstIndex(a, sep) + 1..], sep, b);
      SplitAroundFirst(a, sep, b);
    } else {
      SplitAroundLast(a, sep, b);
    }
  }

  /** Joining pieces free of the separator and splitting again gives the pieces. */
  lemma {:induction false} SplitJoin(parts: seq<string>, sep: char)
    requires |parts| >= 1
    requires SepFree(parts, sep)
    ensures Split(Join(parts, sep), sep) == parts
    decreases |parts|
  {
    SplitSepFree(parts[0], sep);
    if |parts| > 1 {
      SplitJoin(parts[1..], sep);
      SplitAround(parts[0], sep, Join(parts[1..], sep));
      assert [parts[0]] + parts[1..] == parts;
    }
  }

  /** `t` is the text of `s` before its first `sep`, or all of `s` when it has none. */
  predicate HeadBefore(t: string, s: string, sep: char) {
    && sep !in t && |t| <= |s| && s[..|t|] == t
    && (|t| == |s| || s[|t|] == sep)
  }

  /** `t` is a tail of `s` that starts right after a `sep`, or all of `s`. */
  predicate TailAfter(t: string, s: string, sep: char) {
    && |t| <= |s| && s[|s| - |t|..] == t
    && (|t| == |s| || s[|s| - |t| - 1] == sep)
  }

  /** The first occurrence of `sep` in `a + [sep] + b`, when `a` has none, is
      the one between them. */
  lemma FirstIndexAfter(a: string, sep: char, b: string)
    requires sep !in a
    ensures sep in a + [sep] + b && FirstIndex(a + [sep] + b, sep) == |a|
  {
    var s := a + [sep] + b;
    assert s[|a|] == sep;
    assert s[..|a|] == a;
  }

  /** The first piece is the text before the first separator. */
  lemma SplitHead(s: string, sep: char)
    ensures HeadBefore(Split(s, sep)[0], s, sep)
  {
    if sep in s {
      SplitUnfold(s, sep);
    } else {
      SplitSepFree(s, sep);
    }
  }

  /** A tail after a separator of `rest` is one of anything ending in `sep` then `rest`. */
  lemma TailAfterExtend(t: string, head: string, sep: char, rest: string)
    requires TailAfter(t, rest, sep)
    ensures TailAfter(t, head + [sep] + rest, sep)
  {
    var s := head + [sep] + rest;
    assert s[|s| - |rest|..] == rest;
    assert s[|s| - |rest| - 1] == sep;
  }

  /** Joining splits off the last piece: everything before it joined, the
      separator, then the last piece. */
  lemma {:induction false} JoinSnoc(parts: seq<string>, sep: char)
    requires |parts| >= 2
    ensures Join(parts, sep) == Join(parts[..|parts| - 1], sep) + [sep] + parts[|parts| - 1]
    decreases |parts|
  {
    var n := |parts|;
    var init := parts[..n - 1];
    if n > 2 {
      JoinSnoc(parts[1..], sep);
      assert parts[1..][..n - 2] == init[1..];
      assert init[0] == parts[0];
    }
  }

  /** The last of the joined pieces is the text after the last separator. */
  lemma JoinLast(s: string, p: seq<string>, sep: char)
    requires |p| >= 1 && s == Join(p, sep)
    ensures TailAfter(p[|p| - 1], s, sep)
  {
    if |p| >= 2 {
      JoinSnoc(p, sep);
      TailAfterExtend(p[|p| - 1], Join(p[..|p| - 1], sep), sep, p[|p| - 1]);
    }
  }

  /** Separator-free pieces whose join holds the separator are at least two. */
  lemma JoinHasTwo(s: string, p: seq<string>, sep: char)
    requires |p| >= 1 && s == Join(p, sep) && SepFree(p, sep) && sep in s
    ensures |p| >= 2
  {
    if |p| == 1 {
      JoinOne(p, sep);
    }
  }

  lemma JoinOne(p: seq<string>, sep: char)
    requires |p| == 1
    ensures Join(p, sep) == p[0]
  {
  }

  /** The last two joined pieces, with the separator between them, end the text. */
  lemma JoinLastTwo(s: string, p: seq<string>, sep: char)
    requires |p| >= 2 && s == Join(p, sep)
    ensures TailAfter(p[|p| - 2] + [sep] + p[|p| - 1], s, sep)
  {
    var n := |p|;
    JoinSnoc(p, sep);
    var init := p[..n - 1];
    var tail := p[n - 2] + [sep] + p[n - 1];
    if n >= 3 {
      JoinSnoc(init, sep);
      assert init[..n - 2] == p[..n - 2];
      assert s == Join(p[..n - 2], sep) + [sep] + tail;
      TailAfterExtend(tail, Join(p[..n - 2], sep), sep, tail);
    } else {
      assert s == tail;
    }
  }

  lemma JoinEndsInTwo(s: string, p: seq<string>, sep: char)
    requires |p| >= 1 && s == Join(p, sep) && SepFree(p, sep) && sep in s
    ensures |p| >= 2 && TailAfter(p[|p| - 2] + [sep] + p[|p| - 1], s, sep)
  {
    JoinHasTwo(s, p, sep);
    JoinLastTwo(s, p, sep);
  }

  /** The last piece is the text after the last separator: a separator-free
      tail of `s` that is all of `s` or follows a separator. */
  lemma SplitLast(s: string, sep: char)
    ensures sep !in Split(s, sep)[|Split(s, sep)| - 1]
    ensures TailAfter(Split(s, sep)[|Split(s, sep)| - 1], s, sep)
  {
    JoinSplit(s, sep);
    JoinLast(s, Split(s, sep), sep);
  }

  /** With a separator present, there are at least two pieces, and the last two
      and the separator between them are the text after the second-to-last separator. */
  lemma SplitLastTwo(s: string, sep: char)
    requires sep in s
    ensures |Split(s, sep)| >= 2
    ensures sep !in Split(s, sep)[|Split(s, sep)| - 2] && sep !in Split(s, sep)[|Split(s, sep)| - 1]
    ensures TailAfter(Split(s, sep)[|Split(s, sep)| - 2] + [sep] + Split(s, sep)[|Split(s, sep)| - 1], s, sep)
  {
    JoinSplit(s, sep);
    JoinEndsInTwo(s, Split(s, sep), sep);
  }

  // ---------------------------------------------------------------------------
  // Array.prototype.at and string concatenation

  /** `xs.at(i)` (and `xs[i]` for `i >= 0`): negative indices count from the end;
      an index outside the array yields `undefined`. */
  function At<T>(xs: seq<T>, i: int): (r: Option<T>)
    ensures r.Some? <==> -|xs| <= i < |xs|
    ensures 0 <= i < |xs| ==> r == Some(xs[i])
    ensures -|xs| <= i < 0 ==> r == Some(xs[|xs| + i])
  {
    if 0 <= i < |xs| then Some(xs[i])
    else if -|xs| <= i < 0 then Some(xs[|xs| + i])
    else None
  }

  /** The string a value becomes under `+` with a string: `undefined` prints as
      the nine characters "undefined". */
  function Str(v: Option<string>): string {
    match v
    case Some(s) => s
    case None => "undefined"
  }

  // ---------------------------------------------------------------------------
  // parseInt

  /** The characters `parseInt` skips at the front: ECMAScript's WhiteSpace
      and LineTerminator productions. */
  predicate IsJsSpace(c: char) {
    var k := c as int;
    || k == 0x09 || k == 0x0A || k == 0x0B || k == 0x0C || k == 0x0D || k == 0x20
    || k == 0xA0 || k == 0x1680 || 0x2000 <= k <= 0x200A
    || k == 0x2028 || k == 0x2029 || k == 0x202F || k == 0x205F
    || k == 0x3000 || k == 0xFEFF
  }

  /** The string with its leading white space removed. */
  function TrimStart(s: string): (r: string)
    ensures |r| <= |s| && r == s[|s| - |r|..]
    ensures forall i :: 0 <= i < |s| - |r| ==> IsJsSpace(s[i])
    ensures |r| > 0 ==> !IsJsSpace(r[0])
  {
    if |s| > 0 && IsJsSpace(s[0]) then TrimStart(s[1..]) else s
  }

  /** The value of `c` as a digit in base `radix` (10 or 16), if it is one. */
  function DigitValue(c: char, radix: nat): (d: Option<nat>)
    ensures d.Some? ==> d.value < radix || (radix < 10 && d.value < 10)
  {
    if '0' <= c <= '9' && (c as int - '0' as int) < radix then Some(c as int - '0' as int)
    else if radix == 16 && 'a' <= c <= 'f' then Some(c as int - 'a' as int + 10)
    else if radix == 16 && 'A' <= c <= 'F' then Some(c as int - 'A' as int + 10)
    else None
  }

  predicate IsDigitIn(c: char, radix: nat) {
    DigitValue(c, radix).Some?
  }

  /** Length of the longest prefix of `s` made of base-`radix` digits. */
  function DigitRun(s: string, radix: nat): (n: nat)
    ensures n <= |s|
    ensures forall i :: 0 <= i < n ==> IsDigitIn(s[i], radix)
    ensures n < |s| ==> !IsDigitIn(s[n], radix)
  {
    if |s| > 0 && IsDigitIn(s[0], radix) then 1 + DigitRun(s[1..], radix) else 0
  }

  /** The number a string of base-`radix` digits denotes. */
  function DigitsValue(ds: string, radix: nat): nat
    requires forall i :: 0 <= i < |ds| ==> DigitValue(ds[i], radix).Some?
    decreases |ds|
  {
    if |ds| == 0 then 0
    else DigitsValue(ds[..|ds| - 1], radix) * radix + DigitValue(ds[|ds| - 1], radix).value
  }

  /** The longest run of base-`radix` digits at the front of `v`, read as a
      number; NaN when there is none. */
  function ParseRun(v: string, radix: nat): Option<nat> {
    var n := DigitRun(v, radix);
    if n == 0 then None else Some(DigitsValue(v[..n], radix))
  }

  /** An unsigned numeral: base 16 after a "0x" or "0X" prefix, else base 10. */
  function ParseMagnitude(u: string): Option<nat> {
    if |u| >= 2 && u[0] == '0' && (u[1] == 'x' || u[1] == 'X') then ParseRun(u[2..], 16)
    else ParseRun(u, 10)
  }

  /** An optional sign followed by an unsigned numeral. */
  function ParseSigned(t: string): Option<int> {
    if |t| > 0 && t[0] == '-' then
      match ParseMagnitude(t[1..])
      case Some(m) => Some(-(m as int))
      case None => None
    else if |t| > 0 && t[0] == '+' then ParseMagnitude(t[1..])
    else ParseMagnitude(t)
  }

  /** `parseInt(s)` with no radix argument: skip white space, read an optional
      sign, switch to base 16 after a "0x"/"0X" prefix, then read the longest run
      of digits; no digit at all is NaN (`None`). */
  function ParseInt(s: string): (r: Option<int>)
    ensures |TrimStart(s)| == 0 ==> r.None?
    ensures r.Some? && r.value < 0 ==> TrimStart(s)[0] == '-'
    ensures |TrimStart(s)| > 0 && !('0' <= TrimStart(s)[0] <= '9') && TrimStart(s)[0] != '-' && TrimStart(s)[0] != '+' ==> r.None?
  {
    ParseSigned(TrimStart(s))
  }

  /** The decimal numeral of `n`, as `String(n)` prints it (no leading zeros). */
  function Decimal(n: nat): (r: string)
    ensures |r| >= 1
    ensures forall i :: 0 <= i < |r| ==> '0' <= r[i] <= '9'
    ensures r[0] == '0' ==> n == 0
  {
    if n < 10 then ['0' + n as char] else Decimal(n / 10) + ['0' + (n % 10) as char]
  }

  lemma {:induction false} DecimalValue(n: nat)
    ensures forall i :: 0 <= i < |Decimal(n)| ==> IsDigitIn(Decimal(n)[i], 10)
    ensures DigitsValue(Decimal(n), 10) == n
    decreases n
  {
    var d := Decimal(n);
    if n >= 10 {
      DecimalValue(n / 10);
      assert d[..|d| - 1] == Decimal(n / 10);
    }
  }

  lemma {:induction false} DigitRunOf(ds: string, rest: string, radix: nat)
    requires forall i :: 0 <= i < |ds| ==> IsDigitIn(ds[i], radix)
    requires |rest| == 0 || !IsDigitIn(rest[0], radix)
    ensures DigitRun(ds + rest, radix) == |ds|
    decreases |ds|
  {
    if |ds| > 0 {
      assert (ds + rest)[1..] == ds[1..] + rest;
      DigitRunOf(ds[1..], rest, radix);
    } else {
      assert ds + rest == rest;
    }
  }

  /** The unsigned part reads back what `String(n)` printed. */
  lemma MagnitudeDecimal(n: nat, rest: string)
    requires |rest| == 0 || (!('0' <= rest[0] <= '9') && (n == 0 ==> rest[0] != 'x' && rest[0] != 'X'))
    ensures ParseMagnitude(Decimal(n) + rest) == Some(n)
  {
    var s := Decimal(n) + rest;
    DecimalValue(n);
    DigitRunOf(Decimal(n), rest, 10);
    assert s[..|Decimal(n)|] == Decimal(n);
    if |s| >= 2 && s[0] == '0' {
      assert n == 0 && |Decimal(n)| == 1 && s[1] == rest[0];
    }
  }

  /** Text that does not start with white space is left as it is. */
  lemma TrimStartNoSpace(s: string)
    requires |s| == 0 || !IsJsSpace(s[0])
    ensures TrimStart(s) == s
  {
  }

  /** Without a sign, the signed reading is the unsigned one. */
  lemma SignedUnsigned(t: string)
    requires |t| == 0 || (t[0] != '-' && t[0] != '+')
    ensures ParseSigned(t) == ParseMagnitude(t)
  {
  }

  /** `parseInt` reads back what `String(n)` printed, whatever non-digit text
      follows it ("10abc" and "12x" are 10 and 12); only after a lone "0" does
      an "x" turn the numeral into a hexadecimal prefix. */
  lemma ParseIntDecimal(n: nat, rest: string)
    requires |rest| == 0 || (!('0' <= rest[0] <= '9') && (n == 0 ==> rest[0] != 'x' && rest[0] != 'X'))
    ensures ParseInt(Decimal(n) + rest) == Some(n)
  {
    var d := Decimal(n);
    var s := d + rest;
    assert s[0] == d[0] && '0' <= s[0] <= '9';
    TrimStartNoSpace(s);
    SignedUnsigned(s);
    MagnitudeDecimal(n, rest);
  }

  /** A minus sign negates the unsigned reading after it. */
  lemma NegativeSigned(t: string, m: nat)
    requires |t| > 0 && t[0] == '-' && ParseMagnitude(t[1..]) == Some(m)
    ensures ParseSigned(t) == Some(-(m as int))
  {
  }

  /** A leading minus sign negates what follows it. */
  lemma ParseIntNegative(n: nat)
    ensures ParseInt("-" + Decimal(n)) == Some(-(n as int))
  {
    var s := "-" + Decimal(n);
    assert s[0] == '-';
    TrimStartNoSpace(s);
    assert s[1..] == Decimal(n) + "";
    MagnitudeDecimal(n, "");
    NegativeSigned(s, n);
  }

  /** Leading white space never changes the result. */
  lemma {:induction false} TrimStartSkipsSpace(ws: string, s: string)
    requires forall i :: 0 <= i < |ws| ==> IsJsSpace(ws[i])
    ensures TrimStart(ws + s) == TrimStart(s)
    decreases |ws|
  {
    if |ws| > 0 {
      assert (ws + s)[1..] == ws[1..] + s;
      TrimStartSkipsSpace(ws[1..], s);
    } else {
      assert ws + s == s;
    }
  }

  lemma ParseIntSkipsSpace(ws: string, s: string)
    requires forall i :: 0 <= i < |ws| ==> IsJsSpace(ws[i])
    ensures ParseInt(ws + s) == ParseInt(s)
  {
    TrimStartSkipsSpace(ws, s);
  }

  /** Text that does not start with a digit, a sign or white space is NaN; in
      particular the "undefined" an absent query parameter turns into. */
  lemma ParseIntNaN(s: string)
    requires |s| > 0 && !IsJsSpace(s[0]) && !('0' <= s[0] <= '9') && s[0] != '-' && s[0] != '+'
    ensures ParseInt(s) == None
  {
  }

  lemma ParseIntUndefined()
    ensures ParseInt(Str(None)) == None
  {
    ParseIntNaN("undefined");
  }
}

=== FILE: media.dfy ===
/** The media host (the service's only outside side effect besides the store),
    as an oracle: an upload yields the secure URL of the stored asset or throws
    (`None`); a destroy succeeds or throws (`false`). The handlers record every
    call they make, in order, so that contracts can speak about side effects. */
module Media {
  import opened Wrappers

  /** `uploader.upload(path, options)`: the local file, the target folder, the
      `format` option (absent when `None`) and whether `resource_type` is "raw". */
  datatype Upload = Upload(filename: string, folder: string, format: Option<string>, raw: bool)

  /** `uploader.destroy(publicId, options)`. */
  datatype Destroy = Destroy(publicId: string, raw: bool)

  datatype Call = Uploaded(upload: Upload) | Destroyed(destroy: Destroy)

  datatype Host = Host(upload: Upload -> Option<string>, destroy: Destroy -> bool)

  const CoverFolder := "book-covers"
  const PdfFolder := "book-pdfs"
}

=== FILE: pagination.dfy ===
/** The listing's query-string arithmetic: `parseInt(page) || 1`,
    `Math.min(parseInt(limit) || 10, 100)`, the `skip` offset, `Math.ceil` of the
    page count, and the store's `skip`/`limit` window. */
module Pagination {
  import opened Wrappers
  import opened JsStrings

  const DefaultPage := 1
  const DefaultLimit := 10
  const MaxLimit := 100

  /** `n || d` for the number `parseInt` returned: NaN and 0 are falsy. */
  function OrDefault(n: Option<int>, d: int): int {
    if n.None? || n.value == 0 then d else n.value
  }

  /** The page number of a `page` query parameter (absent: `undefined`, which
      `parseInt` reads as the text "undefined"). */
  function PageOf(query: Option<string>): (page: int)
    ensures page != 0
    ensures query.None? ==> page == DefaultPage
    ensures ParseInt(Str(query)).None? ==> page == DefaultPage
    ensures ParseInt(Str(query)) == Some(0) ==> page == DefaultPage
    ensures ParseInt(Str(query)).Some? && ParseInt(Str(query)).value != 0 ==> page == ParseInt(Str(query)).value
  {
    ParseIntUndefined();
    OrDefault(ParseInt(Str(query)), DefaultPage)
  }

  /** The page size of a `limit` query parameter. It is never 0 and never above
      100, but a negative number passes through unchanged. */
  function LimitOf(query: Option<string>): (limit: int)
    ensures limit != 0 && limit <= MaxLimit
    ensures query.None? ==> limit == DefaultLimit
    ensures ParseInt(Str(query)).None? ==> limit == DefaultLimit
    ensures ParseInt(Str(query)) == Some(0) ==> limit == DefaultLimit
    ensures ParseInt(Str(query)).Some? && 0 < ParseInt(Str(query)).value <= MaxLimit ==> limit == ParseInt(Str(query)).value
    ensures ParseInt(Str(query)).Some? && ParseInt(Str(query)).value > MaxLimit ==> limit == MaxLimit
    ensures ParseInt(Str(query)).Some? && ParseInt(Str(query)).value < 0 ==> limit == ParseInt(Str(query)).value
  {
    ParseIntUndefined();
    var n := OrDefault(ParseInt(Str(query)), DefaultLimit);
    if n < MaxLimit then n else MaxLimit
  }

  /** A decimal `page` parameter means that page, and "0" means the first. */
  lemma PageOfNumeral(n: nat)
    ensures PageOf(Some(Decimal(n))) == if n == 0 then 1 else n
  {
    ParseIntDecimal(n, "");
    assert Decimal(n) + "" == Decimal(n);
  }

  /** A decimal `limit` parameter is taken as is up to 100 and capped there; "0"
      means the default of 10. */
  lemma LimitOfNumeral(n: nat)
    ensures LimitOf(Some(Decimal(n))) == if n == 0 then 10 else if n > 100 then 100 else n
  {
    ParseIntDecimal(n, "");
    assert Decimal(n) + "" == Decimal(n);
  }

  /** The cap has a hole: "-500" is a limit of -500. */
  lemma LimitOfNegative(n: nat)
    requires n > 0
    ensures LimitOf(Some("-" + Decimal(n))) == -(n as int)
  {
    ParseIntNegative(n);
  }

  function Abs(x: int): nat {
    if x < 0 then -x else x
  }

  /** `k` is `Math.ceil(total / limit)`: the least integer not below the quotient. */
  predicate IsCeilQuotient(k: int, total: int, limit: int) {
    if limit > 0 then (k - 1) * limit < total <= k * limit
    else limit < 0 && k * limit <= total < (k - 1) * limit
  }

  /** `Math.ceil(totalBooks / limit)`. */
  function TotalPages(total: nat, limit: int): (k: int)
    requires limit != 0
    ensures IsCeilQuotient(k, total, limit)
    ensures limit > 0 ==> k >= 0 && (total == 0 <==> k == 0)
  {
    if limit > 0 then
      var k := (total + limit - 1) / limit;
      assert k * limit <= total + limit - 1 < (k + 1) * limit;
      k
    else
      var m := -limit;
      var q := total / m;
      assert q * m <= total < (q + 1) * m;
      assert -q * limit == q * m;
      assert (-q - 1) * limit == (q + 1) * m;
      -q
  }

  /** The store's `.skip(skip).limit(limit)` window over `xs`. A negative skip is
      an error of the store (`None`); a negative limit `-n` asks for a single
      batch of at most `n` items. */
  function Window<T>(xs: seq<T>, skip: int, limit: int): (r: Option<seq<T>>)
    ensures r.None? <==> skip < 0
    ensures r.Some? ==> |r.value| <= Abs(limit)
    ensures r.Some? ==> |r.value| == if skip >= |xs| then 0 else if |xs| - skip < Abs(limit) then |xs| - skip else Abs(limit)
    ensures r.Some? ==> forall i :: 0 <= i < |r.value| ==> skip + i < |xs| && r.value[i] == xs[skip + i]
  {
    if skip < 0 then None
    else
      var from := if skip < |xs| then skip else |xs|;
      var n := if |xs| - from < Abs(limit) then |xs| - from else Abs(limit);
      Some(xs[from..from + n])
  }
}

=== FILE: public_id.dfy ===
/** Recovering a media-host public identifier from a stored asset URL, exactly as
    the update and delete handlers do it with `split("/")`, `.at(-2)`, `.at(-1)`
    and string concatenation. A stored URL has the shape
    `<base>/<folder>/<name>` (for example `.../v17/book-covers/k2j3h4.jpg`), and
    the identifier the host expects is `<folder>/<name without extension>` for
    images and `<folder>/<name>` for raw files. */
module PublicId {
  import opened Wrappers
  import opened JsStrings

  /** The cover's identifier: second-to-last `/`-piece, a slash, and the piece just
      before the last `.` of the final `/`-piece. Missing pieces print "undefined".
      With a slash in the URL it keeps the folder of `PdfPublicId`, slash included,
      and what follows has no dot. */
  function CoverPublicId(url: string): (r: string)
    ensures '/' in url ==>
      var p := PdfPublicId(url);
      var f := FirstIndex(p, '/');
      && f < |r| && r[..f + 1] == p[..f + 1]
      && '.' !in r[f + 1..]
  {
    var parts := Split(url, '/');
    var stem := match At(parts, -1)
      case Some(last) => At(Split(last, '.'), -2)
      case None => None;
    var folder := Str(At(parts, -2));
    if '/' in url then
      UrlTail(url);
      Slashed(folder, Str(stem));
      Slashed(folder, parts[|parts| - 1]);
      StemHasNoDot(parts[|parts| - 1]);
      folder + "/" + Str(stem)
    else
      folder + "/" + Str(stem)
  }

  /** The PDF's identifier: the last two `/`-pieces joined by a slash, extension
      kept. With a slash in the URL it is the URL's tail after its second-to-last
      slash, and it holds exactly one slash. */
  function PdfPublicId(url: string): (r: string)
    ensures '/' in r
    ensures '/' in url ==> TailAfter(r, url, '/') && '/' !in r[FirstIndex(r, '/') + 1..]
  {
    var parts := Split(url, '/');
    var folder, name := Str(At(parts, -2)), Str(At(parts, -1));
    SlashIn(folder, name);
    if '/' in url then
      UrlTail(url);
      Slashed(folder, name);
      folder + "/" + name
    else
      folder + "/" + name
  }

  /** A URL with a slash ends in its last two `/`-pieces around a slash. */
  lemma UrlTail(url: string)
    requires '/' in url
    ensures var parts := Split(url, '/');
      && |parts| >= 2 && '/' !in parts[|parts| - 2] && '/' !in parts[|parts| - 1]
      && TailAfter(parts[|parts| - 2] + "/" + parts[|parts| - 1], url, '/')
  {
    SplitLastTwo(url, '/');
    JoinSplit(url, '/');
  }

  lemma SlashIn(a: string, b: string)
    ensures '/' in a + "/" + b
  {
    assert (a + "/" + b)[|a|] == '/';
  }

  /** `a/b` with a slash-free `a`: the first slash follows `a`. */
  lemma Slashed(a: string, b: string)
    requires '/' !in a
    ensures '/' in a + "/" + b && FirstIndex(a + "/" + b, '/') == |a|
    ensures (a + "/" + b)[..|a| + 1] == a + "/" && (a + "/" + b)[|a| + 1..] == b
  {
    assert a + "/" + b == a + ['/'] + b;
    FirstIndexAfter(a, '/', b);
  }

  /** The piece before the last dot, or "undefined", has no dot. */
  lemma StemHasNoDot(last: string)
    ensures '.' !in Str(At(Split(last, '.'), -2))
  {
    JoinSplit(last, '.');
    assert '.' !in "undefined";
  }

  /** The URL under which the media host serves `name` inside `folder`. */
  function AssetUrl(base: string, folder: string, name: string): string {
    base + "/" + folder + "/" + name
  }

  /** Splitting an asset URL on `/` ends with the folder and the name. */
  lemma SplitAssetUrl(base: string, folder: string, name: string)
    requires '/' !in folder && '/' !in name
    ensures Split(AssetUrl(base, folder, name), '/') == Split(base, '/') + [folder, name]
  {
    assert AssetUrl(base, folder, name) == base + ['/'] + (folder + ['/'] + name);
    SplitAround(base, '/', folder + ['/'] + name);
    SplitAround(folder, '/', name);
    SplitSepFree(folder, '/');
    SplitSepFree(name, '/');
  }

  /** Splitting `a.b` on `.`, where neither part has a dot, gives the two parts. */
  lemma SplitDotted(a: string, b: string)
    requires '.' !in a && '.' !in b
    ensures Split(a + "." + b, '.') == [a, b]
  {
    assert a + "." + b == a + ['.'] + b;
    SplitAround(a, '.', b);
    SplitSepFree(a, '.');
    SplitSepFree(b, '.');
  }

  /** The PDF identifier of an asset URL is `folder/name`, extension included. */
  lemma PdfPublicIdOfUrl(base: string, folder: string, name: string)
    requires '/' !in folder && '/' !in name
    ensures PdfPublicId(AssetUrl(base, folder, name)) == folder + "/" + name
  {
    SplitAssetUrl(base, folder, name);
  }

  /** The cover identifier of `.../folder/stem.ext` is `folder/stem`: the extension
      is dropped and nothing else. */
  lemma CoverPublicIdOfUrl(base: string, folder: string, stem: string, ext: string)
    requires '/' !in folder && '/' !in stem && '/' !in ext
    requires '.' !in stem && '.' !in ext
    ensures CoverPublicId(AssetUrl(base, folder, stem + "." + ext)) == folder + "/" + stem
  {
    var name := stem + "." + ext;
    assert '/' !in name by {
      assert forall i :: 0 <= i < |name| ==> name[i] == (if i < |stem| then stem[i] else if i == |stem| then '.' else ext[i - |stem| - 1]);
    }
    SplitAssetUrl(base, folder, name);
    SplitDotted(stem, ext);
  }

  /** Only the piece between the last two dots survives: the cover identifier of
      `.../folder/my.cover.jpg` is `folder/cover`, not `folder/my.cover`. */
  lemma CoverPublicIdKeepsOnlyLastStem(base: string, folder: string, pre: string, stem: string, ext: string)
    requires '/' !in folder && '/' !in pre && '/' !in stem && '/' !in ext
    requires '.' !in stem && '.' !in ext
    ensures CoverPublicId(AssetUrl(base, folder, pre + "." + stem + "." + ext)) == folder + "/" + stem
  {
    var name := pre + "." + stem + "." + ext;
    assert name == pre + ['.'] + (stem + "." + ext);
    assert '/' !in name by {
      assert forall i :: 0 <= i < |name| ==>
        name[i] == (if i < |pre| then pre[i] else if i == |pre| then '.' else (stem + "." + ext)[i - |pre| - 1]);
      assert forall i :: 0 <= i < |stem + "." + ext| ==>
        (stem + "." + ext)[i] == (if i < |stem| then stem[i] else if i == |stem| then '.' else ext[i - |stem| - 1]);
    }
    SplitAssetUrl(base, folder, name);
    SplitAround(pre, '.', stem + "." + ext);
    SplitDotted(stem, ext);
  }

  /** A final piece without a dot has no "piece before the last dot": the
      identifier ends in the literal text "undefined". */
  lemma CoverPublicIdWithoutDot(base: string, folder: string, name: string)
    requires '/' !in folder && '/' !in name && '.' !in name
    ensures CoverPublicId(AssetUrl(base, folder, name)) == folder + "/" + "undefined"
  {
    var url := AssetUrl(base, folder, name);
    SplitAssetUrl(base, folder, name);
    CoverOfPieces(url, folder, name);
    StemUndefined(name);
  }

  lemma StemUndefined(name: string)
    requires '.' !in name
    ensures Str(At(Split(name, '.'), -2)) == "undefined"
  {
    SplitSepFree(name, '.');
  }

  /** The cover identifier of a URL whose last two `/`-pieces are `folder` and `last`. */
  lemma CoverOfPieces(url: string, folder: string, last: string)
    requires |Split(url, '/')| >= 2
    requires Split(url, '/')[|Split(url, '/')| - 2] == folder && Split(url, '/')[|Split(url, '/')| - 1] == last
    ensures CoverPublicId(url) == folder + "/" + Str(At(Split(last, '.'), -2))
  {
  }

  /** A URL without any slash has no second-to-last piece. */
  lemma PdfPublicIdWithoutSlash(url: string)
    requires '/' !in url
    ensures PdfPublicId(url) == "undefined/" + url
  {
    SplitSepFree(url, '/');
  }
}

=== FILE: wrappers.dfy ===
/** The optional value used throughout the model: `None` stands for JavaScript's
    `undefined` (a missing header, a missing array element, NaN from `parseInt`,
    an upload that threw). */
module Wrappers {

  datatype Option<+T> = None | Some(value: T) {

    /** The value in `Some`, or `default` when `None`. */
    function GetOr(default: T): T {
      match this
      case Some(v) => v
      case None => default
    }
  }
}
